=== FILE: README.md ===
# lrc-CLI in Dafny

A model of the core of `lrc-CLI.py`, an interactive terminal player for synchronised
lyrics. The script plays an audio file with an external player and, alongside, shows
the lines of an `.lrc` lyric file at the times their `[mm:ss.ff]` markers name. The model
covers:

- **Lyric parsing** (`Lrc`, `Cues`, `Text`):
  - the marker pattern `\[(\d+):([0-5]?\d(?:\.\d+)?)\]`, written as a deterministic
    scanner `Lrc.MatchAt` and proved equivalent to "a valid marker is written here";
  - the leftmost, non-overlapping scan that both `findall` and `sub` perform;
  - the per-line rules of `parse_lrc`: strip, skip, one entry per marker;
  - the stable sort by timestamp. Timestamps are exact reals:
    `int(minutes) * 60 + whole + digits / 10^k`.
- **The cue scheduler** (`Scheduler`): `display_loop` against an abstract clock, given
  as the reading at the start and then the readings the loop takes in turn. The
  screens it would show come back as a trace: countdown numbers, then lyric frames.
- **Prompts** (`Prompts`):
  - how a reply to the loop-count prompt is read, including Python's `int()` on it;
  - the loop that asks until a reply is accepted;
  - the de-duplication of path spellings in `prompt_file_path`.
- **The repeat loop of `main`** (`Session`).
- **The player command table** (`Player`).
- **The padding arithmetic of `center_display`** (`Screen`).

Two behaviours of the code deserve mention:

- **Seconds of 60 or more are refused.** The pattern at lrc-CLI.py:13 does not match
  them: `[1:75]` is not a marker at all, because `[0-5]?\d` followed by `]` or `.`
  cannot take `75`. `Lrc.SecondsFieldBelowSixty` proves every seconds field lies in
  [0, 60).
- **Removing markers can form a new one.** `TIMESTAMP_RE.sub('', line)` removes the
  markers in one pass, and the text left behind can contain a fresh one. The line
  `[1[2:00]:00]Hi` has one marker, and its cue text is `[1:00]Hi`.
  `Lrc.RemovalCanFormMarker` states this for every such shape. So "the cue text holds
  no marker" is not true of the code, and the model does not claim it.

## Model

| member | source | states |
|---|---|---|
| Text.Strip | lrc-CLI.py:21 | `strip()` gives the empty string exactly when the line is all whitespace; otherwise the result neither starts nor ends with whitespace |
| Text.StripRemovesOnlySpace | lrc-CLI.py:21 | the line is whitespace, then the stripped text, then whitespace: `strip()` removes nothing else |
| Text.StripIgnoresPadding | lrc-CLI.py:27 | whitespace added around a string does not change what `strip()` returns |
| Text.Lines | lrc-CLI.py:20 | reading a file line by line yields lines without line terminators, and no lines only for empty text |
| Text.LinesOfTerminated | lrc-CLI.py:20 | lines each ended by `\n`, `\r` or `\r\n`, mixed freely, followed by a last line with or without an ending, are read back as exactly those lines, provided no lone `\r` is followed by an empty line ended by `\n` (the two would read as one `\r\n`) |
| Text.DigitsValueBelowPow10 | lrc-CLI.py:32 | a fraction of k digits is worth less than 10^k, so `.ddd` adds less than one second |
| Cues.Insert | lrc-CLI.py:42 | inserting a cue adds exactly that cue to the multiset and nothing else |
| Cues.SortByTs | lrc-CLI.py:42 | the sort result is ordered by timestamp and is a permutation of its input |
| Cues.SortKeepsTies | lrc-CLI.py:42 | the sort is stable: for every timestamp, the cues at that timestamp keep their input order |
| Cues.SortedTiesDetermine | lrc-CLI.py:42 | two sorted lists that agree at every timestamp on the cues there are equal, so any stable sort gives one result |
| Lrc.SecondsFieldBelowSixty | lrc-CLI.py:31-33 | every matched marker has a seconds field in [0, 60), so its time lies between minutes*60 and minutes*60 + 60 |
| Lrc.MatchAt | lrc-CLI.py:13 | a match starts at the position and ends after it, within the line; what it matches is stated by `Lrc.MatchAtIff` |
| Lrc.MatchAtIff | lrc-CLI.py:13 | the pattern matches at a position exactly when a valid marker is written there, and the match is that marker, ending right after it (both directions) |
| Lrc.MatchAtSound | lrc-CLI.py:13 | every match is a valid marker whose text is written at the match position |
| Lrc.MatchAtFindsMarker | lrc-CLI.py:13 | wherever a valid marker is written, the pattern matches it in full |
| Lrc.Scan | lrc-CLI.py:24-27 | the left-to-right scan splits a line into kept characters and valid markers that together spell the line |
| Lrc.ScanReads | lrc-CLI.py:24-27 | the scan cuts a marker exactly where the pattern matches and keeps a character exactly where it does not, leftmost first |
| Lrc.ReadAtUnique | lrc-CLI.py:24-27 | any split of the line that cuts exactly where the pattern matches and keeps exactly where it does not is the scan |
| Lrc.NoMarkerIff | lrc-CLI.py:24-26 | `findall` finds nothing exactly when the pattern matches at no position |
| Lrc.ScanWithoutBracket | lrc-CLI.py:24-27 | text without `[` holds no marker and is left whole by the removal |
| Lrc.ScanLeadingMarkers | lrc-CLI.py:24-27 | markers written back to back, followed by text without `[`, are found in order, and exactly that text remains |
| Lrc.LineCues | lrc-CLI.py:21-34 | every entry a line adds has a timestamp of at least 0 and a non-empty text without surrounding whitespace |
| Lrc.SkippedLines | lrc-CLI.py:21-26 | a blank line adds nothing, and neither does a line the pattern matches nowhere in |
| Lrc.LinePadding | lrc-CLI.py:21 | whitespace around a line changes neither its markers, its text nor its entries |
| Lrc.MarkedLineText | lrc-CLI.py:21-27 | for a line of optional whitespace, one or more markers and then a lyric the pattern matches nowhere in, `findall` gives those markers and the text is the stripped lyric |
| Lrc.MarkedLine | lrc-CLI.py:21-34 | such a line (markers, then a lyric the pattern matches nowhere in) adds one entry per marker, in order, each with that marker's time and the stripped lyric, or none when the lyric is blank |
| Lrc.RemovalSplices | lrc-CLI.py:27 | removing a marker joins the text on its two sides |
| Lrc.RemovalCanFormMarker | lrc-CLI.py:27 | the text left after removing the markers can itself hold a marker the original line did not |
| Lrc.Unsorted | lrc-CLI.py:20-34 | every entry collected from the file, before sorting, is well formed |
| Lrc.ParseLrc | lrc-CLI.py:16-43 | the parse result is sorted, keeps file order among equal timestamps, and holds only well-formed entries |
| Lrc.ParseIsTheStableSort | lrc-CLI.py:42 | any sorted list that keeps file order among ties equals the parse result |
| Scheduler.Ceil | lrc-CLI.py:129 | `math.ceil`: the least integer not below its argument |
| Scheduler.RunCountdown | lrc-CLI.py:123-131 | a countdown screen shows `ceil(first - elapsed)` at each reading while time remains, and the countdown stops at the first reading where none does |
| Scheduler.WaitFor | lrc-CLI.py:134-138 | the wait for a cue ends at the first reading at which the cue is due, or runs out of readings without the cue ever falling due |
| Scheduler.ShowLyrics | lrc-CLI.py:133-140 | each lyric is shown in list order, once, at the first reading of its wait at which it is due; if one is missing, it never fell due |
| Scheduler.DisplayLoop | lrc-CLI.py:115-142 | an empty schedule shows only the no-lyrics message; otherwise the countdown, then the lyrics waiting from the reading after it |
| Scheduler.CountdownDescends | lrc-CLI.py:123-131 | every countdown number is at least 1, and on a clock that does not go backwards the numbers never rise |
| Scheduler.DueAtUnique | lrc-CLI.py:134-137 | a wait has one possible end reading |
| Scheduler.LyricsDetermined | lrc-CLI.py:133-140 | the lyric screens are fixed by the cues and the clock |
| Scheduler.DisplayRunUnique | lrc-CLI.py:115-142 | everything `display_loop` shows is fixed by the cues and the clock |
| Scheduler.ReadingsIncrease | lrc-CLI.py:133-140 | each lyric is shown at a later reading than the one before, so no earlier lyric is revisited |
| Scheduler.EveryLyricShown | lrc-CLI.py:133-140 | once the clock stays past every timestamp and readings remain, every lyric is shown, lyric i by reading k0 + i + 1 |
| Scheduler.TiesShownBackToBack | lrc-CLI.py:133-140 | on a clock that never goes back, a lyric not later than the one before it is shown at the very next reading |
| Prompts.ParseInt | lrc-CLI.py:209 | `int()` accepts only non-empty text, and a negative value only with a leading minus |
| Prompts.ParseDecimal | lrc-CLI.py:209 | `int(str(n)) == n` for every integer n |
| Prompts.ParsePlus | lrc-CLI.py:209 | a leading `+` does not change the value read: `int("+7") == int("7")` |
| Prompts.ParseMinus | lrc-CLI.py:209 | a leading `-` negates the value read |
| Prompts.ParseLeadingZeros | lrc-CLI.py:209 | leading zeros do not change the value read: `int("007") == int("7")` |
| Prompts.ParseUnderscore | lrc-CLI.py:209 | a single underscore between digits does not change the value read: `int("1_000") == int("1000")` |
| Prompts.ReplyTo | lrc-CLI.py:205-215 | an empty reply plays once, and an accepted count is never below 1 |
| Prompts.DecimalReply | lrc-CLI.py:209-215 | a number is refused when negative, means forever when 0, and means n plays when positive |
| Prompts.LoopCountReply | lrc-CLI.py:205-217 | a blank line plays once, an accepted count is never 0 plays, and a line is "not a number" exactly when it is not blank and `int()` refuses its stripped text |
| Prompts.NumberReply | lrc-CLI.py:205-215 | a number reply, however padded, is refused when negative, means forever when 0, and means n plays when positive |
| Prompts.FirstAccepted | lrc-CLI.py:204-217 | the loop returns the count of the first accepted reply, and every reply before it was refused |
| Prompts.PromptLoopCount | lrc-CLI.py:203-217 | `prompt_loop_count` returns the count of the first accepted line, every earlier line was refused, and no count comes back only when the lines run out |
| Prompts.DedupCandidates | lrc-CLI.py:170-180 | the kept spellings are distinct, are exactly the non-blank stripped candidates, and keep first-occurrence order |
| Prompts.DedupDetermined | lrc-CLI.py:170-180 | those three properties fix the de-duplicated list completely |
| Player.BuildPlayerCmd | lrc-CLI.py:66-83 | the command always starts with one of the detectable players and ends with the audio path; a known name, once stripped, is launched as itself, and no name launches `play audio` |
| Player.CommandFor | lrc-CLI.py:69-83 | the command starts with the player's name when it is a known player and with `play` otherwise, and ends with the audio path |
| Player.AudioIsLastArgumentOnly | lrc-CLI.py:69-83 | the options before the audio path do not depend on the path |
| Player.DefaultIsPlay | lrc-CLI.py:67 | no player, an empty name and `play` itself all launch `play audio` |
| Player.PaddedName | lrc-CLI.py:67 | whitespace around the player name does not change the command |
| Player.DetectedPlayerLaunched | lrc-CLI.py:94 | every player the detection list names is launched under its own name |
| Screen.MaxWidth | lrc-CLI.py:57 | the widest line's length: no line is longer, some line is that long, and 0 when there are no lines |
| Screen.Half | lrc-CLI.py:58-59 | the padding is 0 when the text does not fit, and otherwise splits the spare room evenly, give or take one |
| Screen.Spaces | lrc-CLI.py:63 | `" " * n`: n space characters |
| Screen.CenterPadding | lrc-CLI.py:50-59 | text that fits is centred both ways to within one column or row; text that does not fit is not shifted in that direction |
| Screen.CenterDisplay | lrc-CLI.py:50-63 | the printed rows are the blank rows, then every line of the text after the padding; text that fits the terminal is printed within it |
| Session.RepeatPlays | lrc-CLI.py:275-280 | a count of n plays exactly n times (at least once), and forever never stops on its own |

## Left out

- File opening, UTF-8 decoding and the `sys.exit(2)` error paths of `parse_lrc`
  (lrc-CLI.py:18-40) are I/O. `Lrc.ParseLrc` takes the decoded text of the file.
- Lrc.ParseLrc: two errors on well-formed text are not modelled. A marker whose
  minutes run to about 307 digits or more makes `minutes * 60 + seconds`
  (lrc-CLI.py:33) raise OverflowError when added to the float. In current Python (3.11 and the security
  releases 3.10.7, 3.9.14, 3.8.14, 3.7.14), `int()` of more than 4300 digits (lrc-CLI.py:31) raises ValueError. Both are caught
  at lrc-CLI.py:38-40 and end the script with exit status 2. The model computes
  exactly and returns the entry.
- Prompts.ParseInt: in current Python (3.11 and the security releases 3.10.7,
  3.9.14, 3.8.14, 3.7.14), `int()` refuses more than 4300 digits with
  ValueError, and lrc-CLI.py:216-217 then prints "Invalid number" and asks again. The
  model has no digit limit, so `Prompts.ReplyTo` and `Prompts.LoopCountReply` accept
  such a reply as a count.
- `play_audio`, `poll`, `wait` and `terminate` (lrc-CLI.py:103-112, 267-271, 283-288)
  are OS process control. A play in `Session.RepeatPlays` stands for one launch plus
  one run of `display_loop`.
- The SIGINT handler and the KeyboardInterrupt paths (lrc-CLI.py:220-230, 256,
  282-290) are asynchronous signals. They appear only as the `budget` of
  `Session.RepeatPlays`: the number of plays allowed before the user stops the
  program.
- `time.time()` and `time.sleep` are replaced by a given list of clock readings. The
  sleep lengths, including the final half second (lrc-CLI.py:142), only pass time and
  are not modelled.
- `clear_screen` and `os.get_terminal_size` (lrc-CLI.py:46-54) are terminal I/O. The
  terminal size is an optional parameter of `Screen.CenterPadding`; when it is absent,
  the 80 by 24 fallback is used. Printing is returned as rows.
- `detect_player` and `which` (lrc-CLI.py:86-100, 243-253) depend on the PATH. Only
  the list of names it tries is kept, as `Player.DetectionOrder`.
- All of `prompt_file_path` except the de-duplication (lrc-CLI.py:170-180) is not
  modelled: building the candidate spellings (lrc-CLI.py:155-168) uses `shlex.split`,
  and trying them (lrc-CLI.py:182-200) uses `expanduser`, `expandvars` and `isfile`,
  which look at the environment and the file system.
- `input()` and end of input: the prompts take the typed lines as a list. When the
  list runs out, `Prompts.PromptLoopCount` returns no count, where the script would
  raise EOFError.
- Python's `\d` and `int()` also accept non-ASCII decimal digits. The model accepts
  only `0`-`9`, so a marker written with, say, Arabic-Indic digits is not modelled.
- Prompts.ParseInt: `int()` also reads non-ASCII decimal digits. The model reads ASCII
  digits with single underscores between them, after an optional `+` or `-`.
- Lrc.ParseLrc: `float(m[1])` and the sum `minutes * 60 + seconds` (lrc-CLI.py:32-33)
  round to binary floating point. The model uses the exact decimal value instead. The
  sort at lrc-CLI.py:42 compares the rounded keys, so two markers that differ only
  beyond double precision are a tie in the script and keep file order. In the model
  they are ordered by their exact values. For example, in the file
  `[0:00.10000000000000000001]A` then `[0:00.1]B`, the script shows A before B, and
  `Lrc.ParseLrc` gives B before A. The same happens when `minutes * 60` exceeds 2^53.
  "Keeps file order among equal timestamps" in the model therefore means exact
  equality, not equality of the rounded floats.
- The dead `if False` arm for `mplayer` (lrc-CLI.py:80) is never taken, so only its
  live command is modelled.
- Session.RepeatPlays: forever means as many plays as the budget allows, because an
  unbounded loop has no final state to state a contract about.

=== FILE: cues.dfy ===
/** A cue is one (timestamp, text) pair of the lyric file; a schedule is a list of cues
    sorted by timestamp. The script sorts with Python's `list.sort`, which is stable;
    the model sorts by insertion, and proves that the result is the only sorted
    arrangement that keeps the source order among equal timestamps, so any stable
    sort yields it. */
module Cues {
  import opened Text

  datatype Cue = Cue(ts: real, text: string)

  /** What every cue the parser produces satisfies. */
  predicate WellFormed(c: Cue) {
    && c.ts >= 0.0
    && c.text != []
    && !IsSpace(c.text[0]) && !IsSpace(c.text[|c.text| - 1])
  }

  predicate Sorted(s: seq<Cue>) {
    forall i, j :: 0 <= i < j < |s| ==> s[i].ts <= s[j].ts
  }

  /** The cues of `s` whose timestamp is `t`, in their order in `s`. */
  function At(s: seq<Cue>, t: real): seq<Cue>
    decreases |s|
  {
    if s == [] then [] else (if s[0].ts == t then [s[0]] else []) + At(s[1..], t)
  }

  lemma {:induction false} AtMembers(s: seq<Cue>, t: real)
    ensures forall c :: c in At(s, t) <==> c in s && c.ts == t
    decreases |s|
  {
    if s != [] {
      AtMembers(s[1..], t);
      assert s == [s[0]] + s[1..];
    }
  }

  lemma {:induction false} AtAppend(x: seq<Cue>, y: seq<Cue>, t: real)
    ensures At(x + y, t) == At(x, t) + At(y, t)
    decreases |x|
  {
    if x != [] {
      assert (x + y)[1..] == x[1..] + y;
      AtAppend(x[1..], y, t);
    } else {
      assert x + y == y;
    }
  }

  /** Puts `c` in front of the first cue that is not earlier than it. */
  function Insert(c: Cue, s: seq<Cue>): (r: seq<Cue>)
    ensures multiset(r) == multiset(s) + multiset{c}
    ensures forall x :: x in r ==> x == c || x in s
    decreases |s|
  {
    if s == [] || c.ts <= s[0].ts then [c] + s
    else
      assert s == [s[0]] + s[1..];
      [s[0]] + Insert(c, s[1..])
  }

  lemma PrependSorted(x: Cue, r: seq<Cue>)
    requires Sorted(r)
    requires forall y :: y in r ==> x.ts <= y.ts
    ensures Sorted([x] + r)
  {
    var xr := [x] + r;
    forall i, j | 0 <= i < j < |xr|
      ensures xr[i].ts <= xr[j].ts
    {
      assert xr[j] == r[j - 1];
      assert r[j - 1] in r;
    }
  }

  lemma FirstIsLeast(s: seq<Cue>)
    requires Sorted(s) && s != []
    ensures forall y :: y in s[1..] ==> s[0].ts <= y.ts
  {
    forall y | y in s[1..]
      ensures s[0].ts <= y.ts
    {
      var k :| 0 <= k < |s[1..]| && s[1..][k] == y;
      assert y == s[k + 1];
    }
  }

  lemma {:induction false} InsertSorted(c: Cue, s: seq<Cue>)
    requires Sorted(s)
    ensures Sorted(Insert(c, s))
    decreases |s|
  {
    if s == [] || c.ts <= s[0].ts {
      if s != [] {
        FirstIsLeast(s);
        assert s == [s[0]] + s[1..];
      }
      PrependSorted(c, s);
    } else {
      InsertSorted(c, s[1..]);
      FirstIsLeast(s);
      PrependSorted(s[0], Insert(c, s[1..]));
    }
  }

  /** Stable insertion sort by timestamp. */
  function SortByTs(s: seq<Cue>): (r: seq<Cue>)
    ensures Sorted(r)
    ensures multiset(r) == multiset(s)
    decreases |s|
  {
    if s == [] then []
    else
      assert s == [s[0]] + s[1..];
      InsertSorted(s[0], SortByTs(s[1..]));
      Insert(s[0], SortByTs(s[1..]))
  }

  /** Two cues with different timestamps never both sit at one timestamp, so their
      ties can be listed in either order. */
  lemma SwapDistinct(x: Cue, y: Cue, rest: seq<Cue>, t: real)
    requires x.ts != y.ts
    ensures At([x], t) + (At([y], t) + rest) == At([y], t) + (At([x], t) + rest)
  {
    assert [x][1..] == [] && [y][1..] == [];
    if x.ts == t {
      assert At([y], t) == [];
      assert At([y], t) + rest == rest;
      assert At([y], t) + (At([x], t) + rest) == At([x], t) + rest;
    } else {
      assert At([x], t) == [];
      assert At([x], t) + rest == rest;
      assert At([x], t) + (At([y], t) + rest) == At([y], t) + rest;
    }
  }

  /** Inserting a cue in front of the cues not earlier than it keeps ties in order. */
  lemma {:induction false} InsertKeepsTies(c: Cue, s: seq<Cue>, t: real)
    requires Sorted(s)
    ensures At(Insert(c, s), t) == At([c] + s, t)
    decreases |s|
  {
    if s != [] && c.ts > s[0].ts {
      assert Sorted(s[1..]);
      InsertKeepsTies(c, s[1..], t);
      InsertPastHead(c, s, t);
    }
  }

  /** One step of InsertKeepsTies: moving `c` past a strictly earlier head. */
  lemma InsertPastHead(c: Cue, s: seq<Cue>, t: real)
    requires s != [] && c.ts > s[0].ts
    requires At(Insert(c, s[1..]), t) == At([c] + s[1..], t)
    ensures At(Insert(c, s), t) == At([c] + s, t)
  {
    var rest := Insert(c, s[1..]);
    calc {
      At(Insert(c, s), t);
      At([s[0]] + rest, t);
      { AtAppend([s[0]], rest, t); }
      At([s[0]], t) + At(rest, t);
      { AtAppend([c], s[1..], t); }
      At([s[0]], t) + (At([c], t) + At(s[1..], t));
      { SwapDistinct(s[0], c, At(s[1..], t), t); }
      At([c], t) + (At([s[0]], t) + At(s[1..], t));
      { AtAppend([s[0]], s[1..], t); assert [s[0]] + s[1..] == s; }
      At([c], t) + At(s, t);
      { AtAppend([c], s, t); }
      At([c] + s, t);
    }
  }

  /** The sort is stable: for every timestamp, the cues at that timestamp come out in
      the order they went in. */
  lemma {:induction false} SortKeepsTies(s: seq<Cue>, t: real)
    ensures At(SortByTs(s), t) == At(s, t)
    decreases |s|
  {
    if s != [] {
      SortKeepsTies(s[1..], t);
      InsertKeepsTies(s[0], SortByTs(s[1..]), t);
      assert ([s[0]] + SortByTs(s[1..]))[1..] == SortByTs(s[1..]);
      assert s == [s[0]] + s[1..];
    }
  }

  lemma SameTiesEmpty(a: seq<Cue>, b: seq<Cue>)
    requires forall t :: At(a, t) == At(b, t)
    ensures a == [] <==> b == []
  {
    if a != [] {
      AtMembers(a, a[0].ts);
      AtMembers(b, a[0].ts);
      assert a[0] in At(a, a[0].ts);
    }
    if b != [] {
      AtMembers(a, b[0].ts);
      AtMembers(b, b[0].ts);
      assert b[0] in At(b, b[0].ts);
    }
  }

  /** Two sorted lists with the same ties start with the same cue: the earliest one. */
  lemma SortedSameHead(a: seq<Cue>, b: seq<Cue>)
    requires Sorted(a) && Sorted(b) && a != [] && b != []
    requires forall t :: At(a, t) == At(b, t)
    ensures a[0] == b[0]
  {
    var t0, t1 := a[0].ts, b[0].ts;
    assert t1 <= t0 by {
      HeadNotLater(a, b);
    }
    assert t0 <= t1 by {
      HeadNotLater(b, a);
    }
    assert At(a, t0)[0] == a[0];
    assert At(b, t1)[0] == b[0];
  }

  /** The head of a sorted list is no later than the head of a list with the same ties. */
  lemma HeadNotLater(a: seq<Cue>, b: seq<Cue>)
    requires Sorted(b) && a != [] && b != []
    requires forall t :: At(a, t) == At(b, t)
    ensures b[0].ts <= a[0].ts
  {
    var t0 := a[0].ts;
    AtMembers(a, t0);
    AtMembers(b, t0);
    assert a[0] in At(a, t0);
    assert a[0] in At(b, t0);
    assert a[0] in b;
    var k :| 0 <= k < |b| && b[k] == a[0];
    assert k == 0 || b[0].ts <= b[k].ts;
  }

  /** A sorted list is determined by its ties: two sorted lists that agree, for every
      timestamp, on the cues at that timestamp are equal. So a stable sort has one
      possible result. */
  lemma {:induction false} SortedTiesDetermine(a: seq<Cue>, b: seq<Cue>)
    requires Sorted(a) && Sorted(b)
    requires forall t :: At(a, t) == At(b, t)
    ensures a == b
    decreases |a| + |b|
  {
    SameTiesEmpty(a, b);
    if a != [] {
      SortedSameHead(a, b);
      forall t
        ensures At(a[1..], t) == At(b[1..], t)
      {
        var h := if a[0].ts == t then [a[0]] else [];
        assert At(a, t) == h + At(a[1..], t);
        assert At(b, t) == h + At(b[1..], t);
        assert At(a[1..], t) == (h + At(a[1..], t))[|h|..];
        assert At(b[1..], t) == (h + At(b[1..], t))[|h|..];
      }
      SortedTiesDetermine(a[1..], b[1..]);
      assert a == [a[0]] + a[1..];
      assert b == [b[0]] + b[1..];
    }
  }
}

=== FILE: lrc.dfy ===
/** The lyric-file parser of lrc-CLI.py: the marker pattern `\[(\d+):([0-5]?\d(?:\.\d+)?)\]`
    as a hand-written scanner, the per-line transformation of `parse_lrc`, and the whole
    text turned into a schedule sorted by timestamp. */
module Lrc {
  import opened Text
  import opened Cues

  /** The two groups of one marker match, the second split at its decimal point:
      `[minutes:whole]` or `[minutes:whole.frac]`. */
  datatype Marker = Marker(minutes: string, whole: string, frac: Option<string>)

  /** The markers the pattern describes: one or more minute digits; one seconds digit,
      or two whose first is 0-5; optionally a point and one or more digits. */
  predicate ValidMarker(m: Marker) {
    && |m.minutes| >= 1 && AllDigits(m.minutes)
    && (|m.whole| == 1 || (|m.whole| == 2 && '0' <= m.whole[0] <= '5'))
    && AllDigits(m.whole)
    && (m.frac.Some? ==> |m.frac.value| >= 1 && AllDigits(m.frac.value))
  }

  /** The text of a marker as it appears in a line. */
  function Render(m: Marker): string {
    "[" + (m.minutes + (":" + (m.whole + (Tail(m) + "]"))))
  }

  /** What follows the seconds digits of a marker, up to its closing bracket. */
  function Tail(m: Marker): string {
    if m.frac.Some? then "." + m.frac.value else ""
  }

  /** The seconds field `float(whole.frac)`, as an exact real. */
  function SecondsField(m: Marker): real
    requires ValidMarker(m)
  {
    DigitsValue(m.whole) as real
    + (if m.frac.Some? then DigitsValue(m.frac.value) as real / Pow10(|m.frac.value|) as real else 0.0)
  }

  /** The time a marker names: `int(minutes) * 60 + float(seconds)`. */
  function MarkerSeconds(m: Marker): real
    requires ValidMarker(m)
  {
    (DigitsValue(m.minutes) * 60) as real + SecondsField(m)
  }

  /** The pattern only admits seconds below 60, so a marker names minutes*60 plus a
      seconds value in [0, 60). */
  lemma SecondsFieldBelowSixty(m: Marker)
    requires ValidMarker(m)
    ensures 0.0 <= SecondsField(m) < 60.0
    ensures MarkerSeconds(m) >= (DigitsValue(m.minutes) * 60) as real
    ensures MarkerSeconds(m) < (DigitsValue(m.minutes) * 60 + 60) as real
  {
    WholeBelowSixty(m.whole);
    if m.frac.Some? {
      var f := m.frac.value;
      DigitsValueBelowPow10(f);
      RatioBelowOne(DigitsValue(f) as real, Pow10(|f|) as real);
    }
  }

  lemma WholeBelowSixty(w: string)
    requires |w| == 1 || (|w| == 2 && '0' <= w[0] <= '5')
    requires AllDigits(w)
    ensures DigitsValue(w) <= 59
  {
    assert w[..|w| - 1][..0] == [];
    if |w| == 2 {
      assert w[..1] == [w[0]];
      assert DigitsValue(w[..1]) == DigitValue(w[0]);
    }
  }

  lemma RatioBelowOne(d: real, p: real)
    requires 0.0 <= d < p
    ensures 0.0 <= d / p < 1.0
  {
  }

  // ---------------------------------------------------------------------------
  // Matching the pattern at one position

  /** `x` is written in `s` at position `j`. */
  predicate WrittenAt(s: string, j: nat, x: string) {
    j + |x| <= |s| && s[j..j + |x|] == x
  }

  /** The end of the run of digits that starts at `i`. */
  function DigitRun(s: string, i: nat): (j: nat)
    requires i <= |s|
    ensures i <= j <= |s|
    ensures j < |s| ==> !IsDigit(s[j])
    decreases |s| - i
  {
    if i < |s| && IsDigit(s[i]) then DigitRun(s, i + 1) else i
  }

  /** Everything the digit run starting at `i` passes over is a digit. */
  lemma {:induction false} DigitRunDigits(s: string, i: nat)
    requires i <= |s|
    ensures forall k :: i <= k < DigitRun(s, i) ==> IsDigit(s[k])
    decreases |s| - i
  {
    if i < |s| && IsDigit(s[i]) {
      DigitRunDigits(s, i + 1);
    }
  }

  datatype Match = Match(marker: Marker, end: nat)

  /** The pattern matched at position `i` of `s`, if it matches there. `\d+` before the
      colon and `\d+` after the point can only end where the digits end, and `[0-5]?\d`
      matches exactly when the seconds digits are one digit, or two starting with 0-5:
      with three or more digits, or two starting with 6-9, the character after the
      digit(s) the group can take is another digit, so neither alternative matches.
      MatchAtIff below states what a match means. */
  function MatchAt(s: string, i: nat): (r: Option<Match>)
    requires i <= |s|
    ensures r.Some? ==> i < r.value.end <= |s|
  {
    if i == |s| || s[i] != '[' then None
    else
      var a := DigitRun(s, i + 1);
      if a == i + 1 || a == |s| || s[a] != ':' then None
      else
        var b := DigitRun(s, a + 1);
        if !(b - a - 1 == 1 || (b - a - 1 == 2 && '0' <= s[a + 1] <= '5')) || b == |s| then None
        else if s[b] == ']' then
          Some(Match(Marker(s[i + 1..a], s[a + 1..b], None), b + 1))
        else if s[b] == '.' then
          var c := DigitRun(s, b + 1);
          if c == b + 1 || c == |s| || s[c] != ']' then None
          else Some(Match(Marker(s[i + 1..a], s[a + 1..b], Some(s[b + 1..c])), c + 1))
        else None
  }

  /** The pattern matches at `i` exactly when a marker is written there, and the match
      is that marker, ending right after it. */
  lemma MatchAtIff(s: string, i: nat, m: Marker, j: nat)
    requires i <= |s|
    ensures MatchAt(s, i) == Some(Match(m, j))
        <==> ValidMarker(m) && WrittenAt(s, i, Render(m)) && j == i + |Render(m)|
  {
    if MatchAt(s, i) == Some(Match(m, j)) {
      MatchAtSound(s, i);
    }
    if ValidMarker(m) && WrittenAt(s, i, Render(m)) && j == i + |Render(m)| {
      MatchAtFindsMarker(s, i, m);
    }
  }

  /** `mt` is a valid marker written at `i`, and ends right after it. */
  predicate Found(s: string, i: nat, mt: Match) {
    ValidMarker(mt.marker) && WrittenAt(s, i, Render(mt.marker)) && mt.end == i + |Render(mt.marker)|
  }

  /** A match is a valid marker written at `i`. */
  lemma MatchAtSound(s: string, i: nat)
    requires i <= |s|
    ensures MatchAt(s, i).Some? ==> Found(s, i, MatchAt(s, i).value)
  {
    if MatchAt(s, i).Some? {
      MatchAtHead(s, i);
      MatchAtValue(s, i);
      var a := DigitRun(s, i + 1);
      var b := DigitRun(s, a + 1);
      if s[b] == ']' {
        SoundPlain(s, i, a, b);
      } else {
        SoundFraction(s, i, a, b, DigitRun(s, b + 1));
      }
    }
  }

  /** `[`, minute digits from `i + 1` to `a`, `:`, and seconds digits from `a + 1` to
      `b` that the seconds group admits. */
  predicate HeadLayout(s: string, i: nat, a: nat, b: nat) {
    && i + 1 < a < b < |s| && s[i] == '[' && s[a] == ':'
    && (forall k :: i + 1 <= k < a ==> IsDigit(s[k]))
    && (forall k :: a + 1 <= k < b ==> IsDigit(s[k]))
    && (b - a - 1 == 1 || (b - a - 1 == 2 && '0' <= s[a + 1] <= '5'))
  }

  /** `.`, fraction digits from `b + 1` to `c`, and `]`. */
  predicate FractionLayout(s: string, b: nat, c: nat) {
    && b + 1 < c < |s| && s[b] == '.' && s[c] == ']'
    && (forall k :: b + 1 <= k < c ==> IsDigit(s[k]))
  }

  /** Where the minutes and seconds of a match lie. */
  lemma MatchAtHead(s: string, i: nat)
    requires i <= |s| && MatchAt(s, i).Some?
    ensures i + 1 < DigitRun(s, i + 1)
    ensures HeadLayout(s, i, DigitRun(s, i + 1), DigitRun(s, DigitRun(s, i + 1) + 1))
  {
    DigitRunDigits(s, i + 1);
    DigitRunDigits(s, DigitRun(s, i + 1) + 1);
  }

  /** What a match is, with or without a fraction. */
  lemma MatchAtValue(s: string, i: nat)
    requires i <= |s| && MatchAt(s, i).Some?
    ensures var a := DigitRun(s, i + 1);
      && a < |s|
      && var b := DigitRun(s, a + 1);
      && b < |s|
      && (s[b] == ']' ==> MatchAt(s, i).value == Match(Marker(s[i + 1..a], s[a + 1..b], None), b + 1))
      && (s[b] != ']' ==> var c := DigitRun(s, b + 1);
               && FractionLayout(s, b, c)
               && MatchAt(s, i).value == Match(Marker(s[i + 1..a], s[a + 1..b], Some(s[b + 1..c])), c + 1))
  {
    var a := DigitRun(s, i + 1);
    var b := DigitRun(s, a + 1);
    if s[b] != ']' {
      DigitRunDigits(s, b + 1);
    }
  }

  lemma SoundPlain(s: string, i: nat, a: nat, b: nat)
    requires HeadLayout(s, i, a, b) && s[b] == ']'
    ensures Found(s, i, Match(Marker(s[i + 1..a], s[a + 1..b], None), b + 1))
  {
    var m := Marker(s[i + 1..a], s[a + 1..b], None);
    DigitsSlice(s, i + 1, a);
    DigitsSlice(s, a + 1, b);
    WritePlain(s, i, a, b);
    RenderLength(m);
  }

  lemma SoundFraction(s: string, i: nat, a: nat, b: nat, c: nat)
    requires HeadLayout(s, i, a, b) && FractionLayout(s, b, c)
    ensures Found(s, i, Match(Marker(s[i + 1..a], s[a + 1..b], Some(s[b + 1..c])), c + 1))
  {
    var m := Marker(s[i + 1..a], s[a + 1..b], Some(s[b + 1..c]));
    DigitsSlice(s, i + 1, a);
    DigitsSlice(s, a + 1, b);
    DigitsSlice(s, b + 1, c);
    WriteFraction(s, i, a, b, c);
    RenderLength(m);
  }

  lemma RenderLength(m: Marker)
    ensures |Render(m)| == |m.minutes| + |m.whole| + |Tail(m)| + 3
  {
  }

  lemma DigitsSlice(s: string, i: nat, j: nat)
    requires i <= j <= |s|
    requires forall k :: i <= k < j ==> IsDigit(s[k])
    ensures AllDigits(s[i..j])
  {
    forall k | 0 <= k < j - i
      ensures IsDigit(s[i..j][k])
    {
      assert s[i..j][k] == s[i + k];
    }
  }

  lemma Glue(s: string, j: nat, x: string, y: string)
    requires WrittenAt(s, j, x) && WrittenAt(s, j + |x|, y)
    ensures WrittenAt(s, j, x + y)
  {
    assert s[j..j + |x| + |y|] == s[j..j + |x|] + s[j + |x|..j + |x| + |y|];
  }

  lemma Peel(s: string, j: nat, x: string, y: string)
    requires WrittenAt(s, j, x + y)
    ensures WrittenAt(s, j, x) && WrittenAt(s, j + |x|, y)
  {
    assert s[j..j + |x|] == s[j..j + |x + y|][..|x|];
    assert s[j + |x|..j + |x| + |y|] == s[j..j + |x + y|][|x|..];
  }

  lemma CharWritten(s: string, j: nat, c: char)
    requires j < |s|
    ensures WrittenAt(s, j, [c]) <==> s[j] == c
  {
    assert |s[j..j + 1]| == 1 && s[j..j + 1][0] == s[j];
  }

  lemma SliceWritten(s: string, i: nat, j: nat)
    requires i <= j <= |s|
    ensures WrittenAt(s, i, s[i..j])
  {
  }

  /** `[minutes:whole` followed by `rest` is written at `i`, given where the brackets,
      colon and digits are. */
  lemma WriteHead(s: string, i: nat, a: nat, b: nat, rest: string)
    requires i < a < b <= |s|
    requires s[i] == '[' && s[a] == ':'
    requires WrittenAt(s, b, rest)
    ensures WrittenAt(s, i, "[" + (s[i + 1..a] + (":" + (s[a + 1..b] + rest))))
  {
    var w := s[a + 1..b];
    var mm := s[i + 1..a];
    assert WrittenAt(s, a + 1, w + rest) by {
      SliceWritten(s, a + 1, b);
      Glue(s, a + 1, w, rest);
    }
    assert WrittenAt(s, a, ":" + (w + rest)) by {
      CharWritten(s, a, ':');
      Glue(s, a, ":", w + rest);
    }
    assert WrittenAt(s, i + 1, mm + (":" + (w + rest))) by {
      SliceWritten(s, i + 1, a);
      Glue(s, i + 1, mm, ":" + (w + rest));
    }
    CharWritten(s, i, '[');
    Glue(s, i, "[", mm + (":" + (w + rest)));
  }

  lemma WritePlain(s: string, i: nat, a: nat, b: nat)
    requires i < a < b < |s|
    requires s[i] == '[' && s[a] == ':' && s[b] == ']'
    ensures WrittenAt(s, i, Render(Marker(s[i + 1..a], s[a + 1..b], None)))
  {
    CharWritten(s, b, ']');
    WriteHead(s, i, a, b, "]");
    assert Tail(Marker(s[i + 1..a], s[a + 1..b], None)) + "]" == "]";
  }

  lemma WriteFraction(s: string, i: nat, a: nat, b: nat, c: nat)
    requires i < a < b < c < |s|
    requires s[i] == '[' && s[a] == ':' && s[b] == '.' && s[c] == ']'
    ensures WrittenAt(s, i, Render(Marker(s[i + 1..a], s[a + 1..b], Some(s[b + 1..c]))))
  {
    var f := s[b + 1..c];
    assert WrittenAt(s, b + 1, f + "]") by {
      SliceWritten(s, b + 1, c);
      CharWritten(s, c, ']');
      Glue(s, b + 1, f, "]");
    }
    assert WrittenAt(s, b, "." + (f + "]")) by {
      CharWritten(s, b, '.');
      Glue(s, b, ".", f + "]");
    }
    WriteHead(s, i, a, b, "." + (f + "]"));
    assert Tail(Marker(s[i + 1..a], s[a + 1..b], Some(f))) + "]" == "." + (f + "]");
  }

  /** The digit run that starts at `i` ends at `j` when `s[i..j]` is digits and is
      followed by a non-digit or the end. */
  lemma {:induction false} DigitRunEndsAt(s: string, i: nat, j: nat)
    requires i <= j <= |s|
    requires forall k :: i <= k < j ==> IsDigit(s[k])
    requires j < |s| ==> !IsDigit(s[j])
    ensures DigitRun(s, i) == j
    decreases j - i
  {
    if i < j {
      DigitRunEndsAt(s, i + 1, j);
    }
  }

  /** Conversely, wherever a valid marker is written, the pattern matches it. */
  lemma MatchAtFindsMarker(s: string, i: nat, m: Marker)
    requires ValidMarker(m) && WrittenAt(s, i, Render(m))
    ensures MatchAt(s, i) == Some(Match(m, i + |Render(m)|))
  {
    if m.frac.Some? {
      FindsFractionMarker(s, i, m);
    } else {
      FindsPlainMarker(s, i, m);
    }
  }

  lemma FindsPlainMarker(s: string, i: nat, m: Marker)
    requires ValidMarker(m) && m.frac.None? && WrittenAt(s, i, Render(m))
    ensures MatchAt(s, i) == Some(Match(m, i + |Render(m)|))
  {
    var a := i + 1 + |m.minutes|;
    var b := a + 1 + |m.whole|;
    PlainRuns(s, i, m, a, b);
    MatchAtPlain(s, i, a, b, m, i + |Render(m)|);
  }

  lemma FindsFractionMarker(s: string, i: nat, m: Marker)
    requires ValidMarker(m) && m.frac.Some? && WrittenAt(s, i, Render(m))
    ensures MatchAt(s, i) == Some(Match(m, i + |Render(m)|))
  {
    var a := i + 1 + |m.minutes|;
    var b := a + 1 + |m.whole|;
    var c := b + 1 + |m.frac.value|;
    FractionRuns(s, i, m, a, b, c);
    MatchAtFraction(s, i, a, b, c, m, i + |Render(m)|);
  }

  /** A written plain marker: its digit runs, its closing bracket, and its parts as
      slices of `s`. */
  lemma PlainRuns(s: string, i: nat, m: Marker, a: nat, b: nat)
    requires ValidMarker(m) && m.frac.None? && WrittenAt(s, i, Render(m))
    requires a == i + 1 + |m.minutes| && b == a + 1 + |m.whole|
    ensures RunsAt(s, i, a, b) && s[b] == ']'
    ensures m == Marker(s[i + 1..a], s[a + 1..b], None) && b + 1 == i + |Render(m)|
  {
    LayoutHead(s, i, m, a, b);
    assert Tail(m) + "]" == "]";
    CharWritten(s, b, ']');
    HeadRuns(s, i, m, a, b);
  }

  /** A written marker with a fraction: its digit runs, point and closing bracket, and
      its parts as slices of `s`. */
  lemma FractionRuns(s: string, i: nat, m: Marker, a: nat, b: nat, c: nat)
    requires ValidMarker(m) && m.frac.Some? && WrittenAt(s, i, Render(m))
    requires a == i + 1 + |m.minutes| && b == a + 1 + |m.whole| && c == b + 1 + |m.frac.value|
    ensures RunsAt(s, i, a, b) && s[b] == '.' && b + 1 < c < |s| && DigitRun(s, b + 1) == c && s[c] == ']'
    ensures m == Marker(s[i + 1..a], s[a + 1..b], Some(s[b + 1..c])) && c + 1 == i + |Render(m)|
  {
    FractionLaidOut(s, i, m, a, b, c);
    FractionRunsOf(s, i, m, a, b, c);
  }

  /** Where the pieces of a written marker with a fraction lie. */
  lemma FractionLaidOut(s: string, i: nat, m: Marker, a: nat, b: nat, c: nat)
    requires m.frac.Some? && WrittenAt(s, i, Render(m))
    requires a == i + 1 + |m.minutes| && b == a + 1 + |m.whole| && c == b + 1 + |m.frac.value|
    ensures s[i] == '[' && WrittenAt(s, i + 1, m.minutes) && s[a] == ':'
    ensures WrittenAt(s, a + 1, m.whole) && WrittenAt(s, b, "." + (m.frac.value + "]"))
    ensures c + 1 == i + |Render(m)|
  {
    LayoutHead(s, i, m, a, b);
    assert Tail(m) + "]" == "." + (m.frac.value + "]");
  }

  /** The digit runs over the laid-out pieces of a marker with a fraction. */
  lemma FractionRunsOf(s: string, i: nat, m: Marker, a: nat, b: nat, c: nat)
    requires ValidMarker(m) && m.frac.Some?
    requires a == i + 1 + |m.minutes| && b == a + 1 + |m.whole| && c == b + 1 + |m.frac.value|
    requires WrittenAt(s, b, "." + (m.frac.value + "]"))
    requires s[i] == '[' && WrittenAt(s, i + 1, m.minutes) && s[a] == ':' && WrittenAt(s, a + 1, m.whole)
    ensures RunsAt(s, i, a, b) && s[b] == '.' && b + 1 < c < |s| && DigitRun(s, b + 1) == c && s[c] == ']'
    ensures m == Marker(s[i + 1..a], s[a + 1..b], Some(s[b + 1..c]))
  {
    var f := m.frac.value;
    TailRuns(s, b, f);
    HeadRuns(s, i, m, a, b);
    assert DigitRun(s, b + 1) == c;
    assert m.frac == Some(s[b + 1..c]);
  }

  /** The point, fraction digits and bracket of a marker with a fraction, and the digit
      run of the fraction. */
  lemma TailRuns(s: string, b: nat, f: string)
    requires WrittenAt(s, b, "." + (f + "]")) && AllDigits(f)
    ensures b + 1 + |f| < |s| && s[b] == '.' && s[b + 1 + |f|] == ']'
    ensures DigitRun(s, b + 1) == b + 1 + |f| && s[b + 1..b + 1 + |f|] == f
  {
    LayoutTail(s, b, f);
    RunSlice(s, b + 1, f);
  }

  /** The point, fraction digits and bracket of a marker with a fraction. */
  lemma LayoutTail(s: string, b: nat, f: string)
    requires WrittenAt(s, b, "." + (f + "]"))
    ensures b + 1 + |f| < |s| && s[b] == '.' && WrittenAt(s, b + 1, f) && s[b + 1 + |f|] == ']'
  {
    Peel(s, b, ".", f + "]");
    CharWritten(s, b, '.');
    Peel(s, b + 1, f, "]");
    CharWritten(s, b + 1 + |f|, ']');
  }

  /** `[` at `i`, the minute digits up to the colon at `a`, and the seconds digits up to
      `b`, as the pattern's digit runs see them. */
  predicate RunsAt(s: string, i: nat, a: nat, b: nat) {
    && i + 1 < a < b < |s| && s[i] == '[' && s[a] == ':'
    && DigitRun(s, i + 1) == a && DigitRun(s, a + 1) == b
    && (b - a - 1 == 1 || (b - a - 1 == 2 && '0' <= s[a + 1] <= '5'))
  }

  /** The digit runs of the minutes and the seconds of a marker laid out from `i`. */
  lemma HeadRuns(s: string, i: nat, m: Marker, a: nat, b: nat)
    requires ValidMarker(m)
    requires a == i + 1 + |m.minutes| && b == a + 1 + |m.whole| && b < |s|
    requires WrittenAt(s, i + 1, m.minutes) && WrittenAt(s, a + 1, m.whole)
    requires s[i] == '[' && s[a] == ':' && !IsDigit(s[b])
    ensures RunsAt(s, i, a, b)
    ensures s[i + 1..a] == m.minutes && s[a + 1..b] == m.whole
  {
    assert !IsDigit(s[a]);
    RunSlice(s, i + 1, m.minutes);
    RunSlice(s, a + 1, m.whole);
    assert s[a + 1] == m.whole[0];
  }

  /** Where the bracket, minutes, colon and seconds digits sit when a marker is
      written at `i`. */
  lemma LayoutHead(s: string, i: nat, m: Marker, a: nat, b: nat)
    requires WrittenAt(s, i, Render(m))
    requires a == i + 1 + |m.minutes| && b == a + 1 + |m.whole|
    ensures s[i] == '[' && WrittenAt(s, i + 1, m.minutes) && s[a] == ':'
    ensures WrittenAt(s, a + 1, m.whole) && WrittenAt(s, b, Tail(m) + "]")
    ensures |Render(m)| == b - i + |Tail(m)| + 1
  {
    Unpack(s, i, m.minutes, m.whole, Tail(m) + "]");
  }

  /** `[x:yz` written at `i`, piece by piece. */
  lemma Unpack(s: string, i: nat, x: string, y: string, z: string)
    requires WrittenAt(s, i, "[" + (x + (":" + (y + z))))
    ensures s[i] == '[' && WrittenAt(s, i + 1, x) && s[i + 1 + |x|] == ':'
    ensures WrittenAt(s, i + 2 + |x|, y) && WrittenAt(s, i + 2 + |x| + |y|, z)
  {
    var r2 := ":" + (y + z);
    PeelChar(s, i, '[', x + r2);
    Peel(s, i + 1, x, r2);
    PeelChar(s, i + 1 + |x|, ':', y + z);
    Peel(s, i + 2 + |x|, y, z);
  }

  lemma PeelChar(s: string, j: nat, c: char, x: string)
    requires WrittenAt(s, j, [c] + x)
    ensures j < |s| && s[j] == c && WrittenAt(s, j + 1, x)
  {
    assert s[j] == s[j..j + 1 + |x|][0];
    assert s[j + 1..j + 1 + |x|] == s[j..j + 1 + |x|][1..];
  }

  /** The digits `x` written at `j` and followed by a non-digit are the whole digit run
      starting at `j`. */
  lemma RunSlice(s: string, j: nat, x: string)
    requires WrittenAt(s, j, x) && AllDigits(x) && j + |x| < |s| && !IsDigit(s[j + |x|])
    ensures DigitRun(s, j) == j + |x| && s[j..j + |x|] == x
  {
    RunOver(s, j, x);
  }

  /** The digit run starting where the digits `x` are written ends right after them. */
  lemma RunOver(s: string, j: nat, x: string)
    requires WrittenAt(s, j, x) && AllDigits(x) && j + |x| < |s| && !IsDigit(s[j + |x|])
    ensures DigitRun(s, j) == j + |x|
  {
    forall k | j <= k < j + |x|
      ensures IsDigit(s[k])
    {
      assert s[k] == s[j..j + |x|][k - j];
    }
    DigitRunEndsAt(s, j, j + |x|);
  }

  /** MatchAt once the colon at `a` and the closing bracket at `b` are known. */
  lemma MatchAtPlain(s: string, i: nat, a: nat, b: nat, m: Marker, e: nat)
    requires RunsAt(s, i, a, b) && s[b] == ']'
    requires m == Marker(s[i + 1..a], s[a + 1..b], None) && e == b + 1
    ensures MatchAt(s, i) == Some(Match(m, e))
  {
  }

  /** MatchAt once the colon at `a`, the point at `b` and the bracket at `c` are known. */
  lemma MatchAtFraction(s: string, i: nat, a: nat, b: nat, c: nat, m: Marker, e: nat)
    requires RunsAt(s, i, a, b) && s[b] == '.' && b + 1 < c < |s| && DigitRun(s, b + 1) == c && s[c] == ']'
    requires m == Marker(s[i + 1..a], s[a + 1..b], Some(s[b + 1..c])) && e == c + 1
    ensures MatchAt(s, i) == Some(Match(m, e))
  {
  }

  // ---------------------------------------------------------------------------
  // Scanning a line: `findall` and `sub('', ...)`

  /** A line read left to right: characters the pattern does not cover, and markers. */
  datatype Piece = Kept(c: char) | Cut(marker: Marker)

  function PieceText(p: Piece): string {
    match p
    case Kept(c) => [c]
    case Cut(m) => Render(m)
  }

  /** The text a list of pieces was read from. */
  function Flatten(ps: seq<Piece>): string
    decreases |ps|
  {
    if ps == [] then [] else PieceText(ps[0]) + Flatten(ps[1..])
  }

  /** The markers, in order: what `TIMESTAMP_RE.findall` reports. */
  function MarkersOf(ps: seq<Piece>): (ms: seq<Marker>)
    decreases |ps|
  {
    if ps == [] then []
    else (if ps[0].Cut? then [ps[0].marker] else []) + MarkersOf(ps[1..])
  }

  /** The characters outside the markers: what `TIMESTAMP_RE.sub('', ...)` leaves. */
  function KeptText(ps: seq<Piece>): string
    decreases |ps|
  {
    if ps == [] then [] else (if ps[0].Kept? then [ps[0].c] else []) + KeptText(ps[1..])
  }

  predicate AllValid(ps: seq<Piece>) {
    forall k :: 0 <= k < |ps| && ps[k].Cut? ==> ValidMarker(ps[k].marker)
  }

  /** The leftmost, non-overlapping scan both `findall` and `sub` perform: try the
      pattern at `i`; on a match continue after it, otherwise keep `s[i]` and move one
      character on. The pieces spell out exactly the scanned text. */
  function Scan(s: string, i: nat): (ps: seq<Piece>)
    requires i <= |s|
    ensures Flatten(ps) == s[i..]
    ensures AllValid(ps)
    decreases |s| - i
  {
    if i == |s| then []
    else
      match MatchAt(s, i)
      case Some(mt) =>
        var rest := Scan(s, mt.end);
        ScanCut(s, i, mt, rest);
        [Cut(mt.marker)] + rest
      case None =>
        var rest := Scan(s, i + 1);
        ScanKept(s, i, rest);
        [Kept(s[i])] + rest
  }

  /** The pattern tried at every offset of `s`. */
  function Pattern(s: string): nat -> Option<Match> {
    (o: nat) => if o <= |s| then MatchAt(s, o) else None
  }

  /** What the matcher `f` says at offset `o` of `s` about piece `p`: a kept character
      sits where `f` finds no match, and a marker where `f` matches that marker. */
  predicate PieceBy(f: nat -> Option<Match>, s: string, o: nat, p: Piece) {
    match p
    case Kept(c) => o < |s| && s[o] == c && f(o) == None
    case Cut(m) => f(o) == Some(Match(m, o + |Render(m)|))
  }

  /** `ps` reads `s` from `i` to its end, each piece being what `f` says at the offset
      where the pieces before it end. */
  predicate ReadBy(f: nat -> Option<Match>, s: string, i: nat, ps: seq<Piece>)
    decreases |ps|
  {
    if ps == [] then i == |s|
    else
      && i + |PieceText(ps[0])| <= |s|
      && PieceBy(f, s, i, ps[0])
      && ReadBy(f, s, i + |PieceText(ps[0])|, ps[1..])
  }

  lemma ReadByCons(f: nat -> Option<Match>, s: string, i: nat, p: Piece, rest: seq<Piece>, j: nat)
    requires j == i + |PieceText(p)| && j <= |s| && PieceBy(f, s, i, p)
    requires ReadBy(f, s, j, rest)
    ensures ReadBy(f, s, i, [p] + rest)
  {
    assert ([p] + rest)[0] == p && ([p] + rest)[1..] == rest;
  }

  /** A reading in which nothing is cut is one where `f` matches nowhere, and
      conversely. */
  lemma {:induction false} ReadByNoCut(f: nat -> Option<Match>, s: string, i: nat, ps: seq<Piece>)
    requires ReadBy(f, s, i, ps) && f(|s|) == None
    ensures MarkersOf(ps) == [] <==> forall j :: i <= j <= |s| ==> f(j) == None
    decreases |ps|
  {
    if ps != [] {
      var j := i + |PieceText(ps[0])|;
      ReadByNoCut(f, s, j, ps[1..]);
      if ps[0].Kept? {
        assert j == i + 1;
      }
    }
  }

  /** The scan cuts exactly where the pattern matches and keeps exactly where it does
      not, leftmost first. */
  lemma {:induction false} ScanReads(s: string, i: nat)
    requires i <= |s|
    ensures ReadBy(Pattern(s), s, i, Scan(s, i))
    decreases |s| - i
  {
    if i < |s| {
      var p, j := ScanHead(s, i);
      ScanReads(s, j);
      ReadByCons(Pattern(s), s, i, p, Scan(s, j), j);
    }
  }

  /** Conversely, the scan is the only such reading. */
  lemma ReadAtUnique(s: string, i: nat, ps: seq<Piece>)
    requires ReadBy(Pattern(s), s, i, ps)
    ensures i <= |s| && ps == Scan(s, i)
  {
    ReadByBound(Pattern(s), s, i, ps);
    ScanReads(s, i);
    ReadByUnique(Pattern(s), s, i, ps, Scan(s, i));
  }

  lemma ReadByBound(f: nat -> Option<Match>, s: string, i: nat, ps: seq<Piece>)
    requires ReadBy(f, s, i, ps)
    ensures i <= |s|
  {
  }

  /** At one offset, the match or its absence decides the piece. */
  lemma PieceByUnique(f: nat -> Option<Match>, s: string, i: nat, p: Piece, q: Piece)
    requires PieceBy(f, s, i, p) && PieceBy(f, s, i, q)
    ensures p == q
  {
    match p
    case Kept(c) =>
      assert q.Kept?;
    case Cut(m) =>
      assert q.Cut?;
  }

  /** A matcher admits at most one reading: at each offset, the match or its absence
      decides the piece. */
  lemma {:induction false} ReadByUnique(f: nat -> Option<Match>, s: string, i: nat, ps: seq<Piece>, qs: seq<Piece>)
    requires ReadBy(f, s, i, ps) && ReadBy(f, s, i, qs)
    ensures ps == qs
    decreases |ps|
  {
    if ps != [] && qs != [] {
      var j := ReadByHead(f, s, i, ps);
      var k := ReadByHead(f, s, i, qs);
      PieceByUnique(f, s, i, ps[0], qs[0]);
      ReadByAt(f, s, k, j, qs[1..]);
      ReadByUnique(f, s, j, ps[1..], qs[1..]);
      SameHeadTail(ps, qs);
    }
  }

  /** A reading from an offset, restated for an equal offset. */
  lemma ReadByAt(f: nat -> Option<Match>, s: string, k: nat, j: nat, ps: seq<Piece>)
    requires ReadBy(f, s, k, ps) && k == j
    ensures ReadBy(f, s, j, ps)
  {
  }

  /** A non-empty reading starts with a piece and reads on after it. */
  lemma ReadByHead(f: nat -> Option<Match>, s: string, i: nat, ps: seq<Piece>) returns (j: nat)
    requires ReadBy(f, s, i, ps) && ps != []
    ensures j == i + |PieceText(ps[0])| && PieceBy(f, s, i, ps[0]) && ReadBy(f, s, j, ps[1..])
  {
    j := i + |PieceText(ps[0])|;
  }

  /** Sequences with the same head and the same tail are equal. */
  lemma SameHeadTail<T>(a: seq<T>, b: seq<T>)
    requires a != [] && b != [] && a[0] == b[0] && a[1..] == b[1..]
    ensures a == b
  {
    assert a == [a[0]] + a[1..] && b == [b[0]] + b[1..];
  }

  /** The first piece of the scan from `i`, and where the scan goes on. */
  lemma ScanHead(s: string, i: nat) returns (p: Piece, j: nat)
    requires i < |s|
    ensures i < j <= |s| && j == i + |PieceText(p)|
    ensures PieceBy(Pattern(s), s, i, p) && Scan(s, i) == [p] + Scan(s, j)
  {
    match MatchAt(s, i)
    case Some(mt) =>
      CutPiece(s, i, mt);
      p, j := Cut(mt.marker), mt.end;
    case None =>
      KeptPiece(s, i);
      p, j := Kept(s[i]), i + 1;
  }

  /** Where the pattern matches at `i`, the scan cuts that marker and goes on after it. */
  lemma CutPiece(s: string, i: nat, mt: Match)
    requires i <= |s| && MatchAt(s, i) == Some(mt)
    ensures mt.end == i + |Render(mt.marker)| && PieceBy(Pattern(s), s, i, Cut(mt.marker))
    ensures Scan(s, i) == [Cut(mt.marker)] + Scan(s, mt.end)
  {
    MatchAtSound(s, i);
    assert Found(s, i, mt);
    assert Pattern(s)(i) == MatchAt(s, i);
  }

  /** Where the pattern does not match at `i`, the scan keeps `s[i]` and goes on. */
  lemma KeptPiece(s: string, i: nat)
    requires i < |s| && MatchAt(s, i) == None
    ensures PieceBy(Pattern(s), s, i, Kept(s[i]))
    ensures Scan(s, i) == [Kept(s[i])] + Scan(s, i + 1)
  {
    assert Pattern(s)(i) == MatchAt(s, i);
  }

  /** `findall` finds nothing exactly when the pattern matches at no position. */
  lemma NoMarkerIff(s: string, i: nat)
    requires i <= |s|
    ensures MarkersOf(Scan(s, i)) == [] <==> forall j :: i <= j <= |s| ==> MatchAt(s, j) == None
  {
    ScanReads(s, i);
    assert Pattern(s)(|s|) == None;
    ReadByNoCut(Pattern(s), s, i, Scan(s, i));
    assert forall j :: i <= j <= |s| ==> Pattern(s)(j) == MatchAt(s, j);
  }

  /** One step of Scan over a match. */
  lemma ScanCut(s: string, i: nat, mt: Match, rest: seq<Piece>)
    requires i <= |s| && MatchAt(s, i) == Some(mt)
    requires Flatten(rest) == s[mt.end..] && AllValid(rest)
    ensures Flatten([Cut(mt.marker)] + rest) == s[i..] && AllValid([Cut(mt.marker)] + rest)
  {
    MatchAtSound(s, i);
    assert s[i..] == s[i..mt.end] + s[mt.end..];
    FlattenCons(Cut(mt.marker), rest);
  }

  /** One step of Scan over a character the pattern does not cover. */
  lemma ScanKept(s: string, i: nat, rest: seq<Piece>)
    requires i < |s|
    requires Flatten(rest) == s[i + 1..] && AllValid(rest)
    ensures Flatten([Kept(s[i])] + rest) == s[i..] && AllValid([Kept(s[i])] + rest)
  {
    assert s[i..] == [s[i]] + s[i + 1..];
    FlattenCons(Kept(s[i]), rest);
  }

  lemma FlattenCons(p: Piece, ps: seq<Piece>)
    ensures Flatten([p] + ps) == PieceText(p) + Flatten(ps)
    ensures AllValid([p] + ps) <==> (p.Cut? ==> ValidMarker(p.marker)) && AllValid(ps)
  {
    assert ([p] + ps)[1..] == ps;
    if AllValid(ps) && (p.Cut? ==> ValidMarker(p.marker)) {
      forall k | 0 <= k < |[p] + ps| && ([p] + ps)[k].Cut?
        ensures ValidMarker(([p] + ps)[k].marker)
      {
        if k > 0 { assert ([p] + ps)[k] == ps[k - 1]; }
      }
    }
  }

  lemma {:induction false} MarkersOfValid(ps: seq<Piece>)
    requires AllValid(ps)
    ensures forall k :: 0 <= k < |MarkersOf(ps)| ==> ValidMarker(MarkersOf(ps)[k])
    decreases |ps|
  {
    if ps != [] {
      MarkersOfValid(ps[1..]);
    }
  }

  // ---------------------------------------------------------------------------
  // One line of the file

  /** `TIMESTAMP_RE.findall(line)` for the stripped line. */
  function Markers(raw: string): seq<Marker> {
    MarkersOf(Scan(Strip(raw), 0))
  }

  /** `TIMESTAMP_RE.sub('', line).strip()` for the stripped line. */
  function CueText(raw: string): string {
    Strip(KeptText(Scan(Strip(raw), 0)))
  }

  lemma MarkersValid(raw: string)
    ensures forall k :: 0 <= k < |Markers(raw)| ==> ValidMarker(Markers(raw)[k])
  {
    MarkersOfValid(Scan(Strip(raw), 0));
  }

  /** The entries one line of the file adds, in marker order. Every one has a
      timestamp of at least zero and a non-empty text without surrounding whitespace. */
  function LineCues(raw: string): (cues: seq<Cue>)
    ensures forall c :: c in cues ==> WellFormed(c)
  {
    var line := Strip(raw);
    var ms := Markers(raw);
    var text := CueText(raw);
    if line == [] || ms == [] || text == [] then []
    else
      MarkersValid(raw);
      SecondsNonNegative(ms);
      Stamped(ms, text)
  }

  /** One entry per marker, all with the same text. */
  function Stamped(ms: seq<Marker>, text: string): (cues: seq<Cue>)
    requires forall k :: 0 <= k < |ms| ==> ValidMarker(ms[k]) && MarkerSeconds(ms[k]) >= 0.0
    requires text != [] && !IsSpace(text[0]) && !IsSpace(text[|text| - 1])
    ensures forall c :: c in cues ==> WellFormed(c)
  {
    seq(|ms|, k requires 0 <= k < |ms| => Cue(MarkerSeconds(ms[k]), text))
  }

  lemma SecondsNonNegative(ms: seq<Marker>)
    requires forall k :: 0 <= k < |ms| ==> ValidMarker(ms[k])
    ensures forall k :: 0 <= k < |ms| ==> MarkerSeconds(ms[k]) >= 0.0
  {
    forall k | 0 <= k < |ms|
      ensures MarkerSeconds(ms[k]) >= 0.0
    {
      SecondsFieldBelowSixty(ms[k]);
    }
  }

  /** The entries of a line in terms of its markers and its text. */
  lemma LineContribution(raw: string)
    ensures LineCues(raw) == [] <==> Markers(raw) == [] || CueText(raw) == []
    ensures LineCues(raw) != [] ==> |LineCues(raw)| == |Markers(raw)|
    ensures forall k :: 0 <= k < |LineCues(raw)| ==>
      && ValidMarker(Markers(raw)[k])
      && LineCues(raw)[k] == Cue(MarkerSeconds(Markers(raw)[k]), CueText(raw))
  {
    MarkersValid(raw);
    if Strip(raw) == [] {
      assert Scan(Strip(raw), 0) == [];
    }
  }

  /** A blank line adds nothing, and neither does a line the pattern matches nowhere
      in. */
  lemma SkippedLines(raw: string)
    ensures AllSpace(raw) ==> LineCues(raw) == []
    ensures (forall j :: 0 <= j <= |Strip(raw)| ==> MatchAt(Strip(raw), j) == None) ==> LineCues(raw) == []
  {
    NoMarkerIff(Strip(raw), 0);
  }

  /** Whitespace around a line changes nothing: only the stripped line is read. */
  lemma LinePadding(p: string, x: string, q: string)
    requires AllSpace(p) && AllSpace(q)
    ensures Markers(p + x + q) == Markers(x) && CueText(p + x + q) == CueText(x)
    ensures LineCues(p + x + q) == LineCues(x)
  {
    StripIgnoresPadding(p, x, q);
  }

  lemma ScanCutStep(s: string, i: nat, mt: Match)
    requires i <= |s| && MatchAt(s, i) == Some(mt)
    ensures MarkersOf(Scan(s, i)) == [mt.marker] + MarkersOf(Scan(s, mt.end))
    ensures KeptText(Scan(s, i)) == KeptText(Scan(s, mt.end))
  {
    var rest := Scan(s, mt.end);
    assert Scan(s, i) == [Cut(mt.marker)] + rest;
    assert ([Cut(mt.marker)] + rest)[1..] == rest;
  }

  lemma ScanKeptStep(s: string, i: nat)
    requires i < |s| && MatchAt(s, i) == None
    ensures MarkersOf(Scan(s, i)) == MarkersOf(Scan(s, i + 1))
    ensures KeptText(Scan(s, i)) == [s[i]] + KeptText(Scan(s, i + 1))
  {
    var rest := Scan(s, i + 1);
    assert Scan(s, i) == [Kept(s[i])] + rest;
    assert ([Kept(s[i])] + rest)[1..] == rest;
  }

  /** Text with no opening bracket holds no marker and is kept whole. */
  lemma {:induction false} ScanWithoutBracket(s: string, i: nat)
    requires i <= |s|
    requires forall k :: i <= k < |s| ==> s[k] != '['
    ensures MarkersOf(Scan(s, i)) == []
    ensures KeptText(Scan(s, i)) == s[i..]
    decreases |s| - i
  {
    if i < |s| {
      ScanKeptStep(s, i);
      ScanWithoutBracket(s, i + 1);
      assert s[i..] == [s[i]] + s[i + 1..];
    }
  }

  /** The text of several markers written one after another. */
  function RenderAll(ms: seq<Marker>): string
    decreases |ms|
  {
    if ms == [] then [] else Render(ms[0]) + RenderAll(ms[1..])
  }

  predicate NoBracket(t: string) {
    forall k :: 0 <= k < |t| ==> t[k] != '['
  }

  /** Markers written back to back and followed by text the pattern matches nowhere in
      are all found, in order, and the text is all that is kept. */
  lemma {:induction false} ScanLeadingMarkers(s: string, i: nat, ms: seq<Marker>, t: string)
    requires i <= |s| && s[i..] == RenderAll(ms) + t
    requires forall k :: 0 <= k < |ms| ==> ValidMarker(ms[k])
    requires NoMatch(t)
    ensures MarkersOf(Scan(s, i)) == ms && KeptText(Scan(s, i)) == t
    decreases |ms|
  {
    if ms == [] {
      ScanPlainText(s, i, t);
    } else {
      var e := i + |Render(ms[0])|;
      LeadingStep(s, i, ms, t, e);
      ScanLeadingMarkers(s, e, ms[1..], t);
      assert ms == [ms[0]] + ms[1..];
    }
  }

  /** Scanning from `i` cuts the first of the markers written there and goes on right
      after it, where the other markers and the text are written. */
  lemma LeadingStep(s: string, i: nat, ms: seq<Marker>, t: string, e: nat)
    requires i <= |s| && s[i..] == RenderAll(ms) + t && ms != []
    requires forall k :: 0 <= k < |ms| ==> ValidMarker(ms[k])
    requires e == i + |Render(ms[0])|
    ensures e <= |s| && s[e..] == RenderAll(ms[1..]) + t
    ensures MarkersOf(Scan(s, i)) == [ms[0]] + MarkersOf(Scan(s, e))
    ensures KeptText(Scan(s, i)) == KeptText(Scan(s, e))
    ensures forall k :: 0 <= k < |ms[1..]| ==> ValidMarker(ms[1..][k])
  {
    RenderAllCons(ms, t);
    LeadingCut(s, i, ms[0], RenderAll(ms[1..]) + t, e);
    TailValid(ms);
  }

  /** A valid marker written at `i` is cut, and the scan goes on right after it. */
  lemma LeadingCut(s: string, i: nat, m: Marker, rest: string, e: nat)
    requires i <= |s| && ValidMarker(m) && s[i..] == Render(m) + rest && e == i + |Render(m)|
    ensures e <= |s| && s[e..] == rest
    ensures MarkersOf(Scan(s, i)) == [m] + MarkersOf(Scan(s, e))
    ensures KeptText(Scan(s, i)) == KeptText(Scan(s, e))
  {
    MatchesRendered(s, i, m, rest);
    ScanCutStep(s, i, Match(m, e));
  }

  lemma TailValid(ms: seq<Marker>)
    requires ms != [] && forall k :: 0 <= k < |ms| ==> ValidMarker(ms[k])
    ensures forall k :: 0 <= k < |ms[1..]| ==> ValidMarker(ms[1..][k])
  {
    assert forall k :: 0 <= k < |ms[1..]| ==> ms[1..][k] == ms[k + 1];
  }

  lemma RenderAllCons(ms: seq<Marker>, t: string)
    requires ms != []
    ensures RenderAll(ms) + t == Render(ms[0]) + (RenderAll(ms[1..]) + t)
  {
    Assoc(Render(ms[0]), RenderAll(ms[1..]), t);
  }

  /** Text the pattern matches nowhere in, from `i` on, is kept whole. */
  lemma ScanPlainText(s: string, i: nat, t: string)
    requires i <= |s| && s[i..] == t && NoMatch(t)
    ensures MarkersOf(Scan(s, i)) == [] && KeptText(Scan(s, i)) == t
  {
    forall k | i <= k <= |s|
      ensures MatchAt(s, k) == None
    {
      MatchUnshift(s, i, t, k - i);
    }
    ScanWithoutMatch(s, i);
  }

  /** Where the pattern matches nowhere from `i` on, the scan keeps everything. */
  lemma {:induction false} ScanWithoutMatch(s: string, i: nat)
    requires i <= |s|
    requires forall k :: i <= k <= |s| ==> MatchAt(s, k) == None
    ensures MarkersOf(Scan(s, i)) == []
    ensures KeptText(Scan(s, i)) == s[i..]
    decreases |s| - i
  {
    if i < |s| {
      ScanKeptStep(s, i);
      ScanWithoutMatch(s, i + 1);
      assert s[i..] == [s[i]] + s[i + 1..];
    }
  }

  /** The pattern matches nowhere in `t`. */
  predicate NoMatch(t: string) {
    forall j :: 0 <= j <= |t| ==> MatchAt(t, j) == None
  }

  /** Text without an opening bracket holds no match. */
  lemma NoBracketNoMatch(t: string)
    requires NoBracket(t)
    ensures NoMatch(t)
  {
    forall j | 0 <= j <= |t|
      ensures MatchAt(t, j) == None
    {
      assert j < |t| ==> t[j] != '[';
    }
  }

  /** A match at `i + j` in `s` is a match at `j` in `s[i..]`: a match looks only at
      what follows it. */
  lemma MatchUnshift(s: string, i: nat, t: string, j: nat)
    requires i <= |s| && s[i..] == t && j <= |t|
    ensures MatchAt(s, i + j).Some? ==> MatchAt(t, j).Some?
  {
    if MatchAt(s, i + j).Some? {
      var mt := MatchAt(s, i + j).value;
      MatchAtSound(s, i + j);
      FoundInSuffix(s, i, t, j, mt.marker);
    }
  }

  lemma FoundInSuffix(s: string, i: nat, t: string, j: nat, m: Marker)
    requires i <= |s| && s[i..] == t && ValidMarker(m) && WrittenAt(s, i + j, Render(m))
    ensures MatchAt(t, j).Some?
  {
    WrittenInSuffix(s, i, t, j, Render(m));
    MatchAtFindsMarker(t, j, m);
  }

  lemma WrittenInSuffix(s: string, i: nat, t: string, j: nat, x: string)
    requires i <= |s| && s[i..] == t && WrittenAt(s, i + j, x)
    ensures WrittenAt(t, j, x)
  {
    assert t[j..j + |x|] == s[i + j..i + j + |x|];
  }

  /** A match in `u` is still a match once more text follows `u`. */
  lemma MatchExtends(u: string, q: string, j: nat)
    requires j <= |u|
    ensures MatchAt(u, j).Some? ==> MatchAt(u + q, j).Some?
  {
    if MatchAt(u, j).Some? {
      var mt := MatchAt(u, j).value;
      MatchAtSound(u, j);
      FoundInLonger(u, q, j, mt.marker);
    }
  }

  lemma FoundInLonger(u: string, q: string, j: nat, m: Marker)
    requires ValidMarker(m) && WrittenAt(u, j, Render(m))
    ensures MatchAt(u + q, j).Some?
  {
    WrittenInLonger(u, q, j, Render(m));
    MatchAtFindsMarker(u + q, j, m);
  }

  lemma WrittenInLonger(u: string, q: string, j: nat, x: string)
    requires WrittenAt(u, j, x)
    ensures WrittenAt(u + q, j, x)
  {
    assert (u + q)[j..j + |x|] == u[j..j + |x|];
  }

  /** No match in `u + q` means no match in `u`. */
  lemma NoMatchPrefix(u: string, q: string)
    requires NoMatch(u + q)
    ensures NoMatch(u)
  {
    forall j | 0 <= j <= |u|
      ensures MatchAt(u, j) == None
    {
      MatchExtends(u, q, j);
    }
  }

  /** A valid marker at the front of `s[i..]` is matched there. */
  lemma MatchesRendered(s: string, i: nat, m: Marker, rest: string)
    requires i <= |s| && ValidMarker(m) && s[i..] == Render(m) + rest
    ensures MatchAt(s, i) == Some(Match(m, i + |Render(m)|))
    ensures s[i + |Render(m)|..] == rest
  {
    SplitSuffix(s, i, Render(m), rest);
    MatchAtFindsMarker(s, i, m);
  }

  lemma SplitSuffix(s: string, i: nat, x: string, rest: string)
    requires i <= |s| && s[i..] == x + rest
    ensures WrittenAt(s, i, x) && s[i + |x|..] == rest
  {
    assert s[i..i + |x|] == s[i..][..|x|];
    assert s[i + |x|..] == s[i..][|x|..];
  }

  lemma {:induction false} RenderAllEnds(ms: seq<Marker>)
    requires ms != []
    ensures |RenderAll(ms)| >= 2
    ensures RenderAll(ms)[0] == '[' && RenderAll(ms)[|RenderAll(ms)| - 1] == ']'
    decreases |ms|
  {
    var x := Render(ms[0]);
    assert x[0] == '[' && x[|x| - 1] == ']';
    if ms[1..] != [] {
      RenderAllEnds(ms[1..]);
    }
  }

  /** MarkedLineText for a line that neither starts nor ends with whitespace. */
  lemma MarkedLineParts(ms: seq<Marker>, t: string)
    requires ms != [] && forall k :: 0 <= k < |ms| ==> ValidMarker(ms[k])
    requires NoMatch(t) && (t == [] || !IsSpace(t[|t| - 1]))
    ensures Markers(RenderAll(ms) + t) == ms
    ensures CueText(RenderAll(ms) + t) == Strip(t)
  {
    var line := RenderAll(ms) + t;
    RenderAllEnds(ms);
    assert line[0] == '[';
    assert line[|line| - 1] == (if t == [] then ']' else t[|t| - 1]);
    StripUnpadded(line);
    assert line[0..] == line;
    ScanLeadingMarkers(line, 0, ms, t);
  }

  /** A line in the usual shape, indented or not: whitespace, one or more markers, then
      a lyric the pattern matches nowhere in. All the markers are found, in order, and
      the stripped lyric is the text. */
  lemma MarkedLineText(p: string, ms: seq<Marker>, t: string)
    requires AllSpace(p) && ms != [] && forall k :: 0 <= k < |ms| ==> ValidMarker(ms[k])
    requires NoMatch(t)
    ensures Markers(p + (RenderAll(ms) + t)) == ms
    ensures CueText(p + (RenderAll(ms) + t)) == Strip(t)
  {
    var u, q := LyricParts(t);
    RegroupLine(p, RenderAll(ms), u, q, t);
    LinePadding(p, RenderAll(ms) + u, q);
    MarkedLineParts(ms, u);
  }

  /** The lyric without its trailing whitespace, and that whitespace. */
  lemma LyricParts(t: string) returns (u: string, q: string)
    requires NoMatch(t)
    ensures t == u + q && AllSpace(q) && NoMatch(u) && Strip(u) == Strip(t)
    ensures u == [] || !IsSpace(u[|u| - 1])
  {
    u, q := SplitTrailing(t);
    NoMatchPrefix(u, q);
    StripDropsRight(u, q);
  }

  lemma RegroupLine(p: string, r: string, u: string, q: string, t: string)
    requires t == u + q
    ensures p + (r + t) == p + (r + u) + q
  {
  }

  /** Such a line adds one entry per marker, in order, all with the stripped lyric,
      unless the lyric is blank. */
  lemma MarkedLine(p: string, ms: seq<Marker>, t: string)
    requires AllSpace(p) && ms != [] && forall k :: 0 <= k < |ms| ==> ValidMarker(ms[k])
    requires NoMatch(t)
    ensures LineCues(p + (RenderAll(ms) + t)) == [] <==> Strip(t) == []
    ensures Strip(t) != [] ==> |LineCues(p + (RenderAll(ms) + t))| == |ms|
    ensures forall k :: 0 <= k < |LineCues(p + (RenderAll(ms) + t))| ==>
      LineCues(p + (RenderAll(ms) + t))[k] == Cue(MarkerSeconds(ms[k]), Strip(t))
  {
    MarkedLineText(p, ms, t);
    LineContribution(p + (RenderAll(ms) + t));
  }

  lemma RenderOne(m: Marker)
    ensures RenderAll([m]) == Render(m)
    ensures |Render(m)| >= 2 && Render(m)[0] == '[' && Render(m)[|Render(m)| - 1] == ']'
  {
    assert [m][1..] == [];
    RenderAllEnds([m]);
  }

  /** Removing a marker joins the text on its two sides. */
  lemma RemovalSplices(d: char, m: Marker, rest: string)
    requires IsDigit(d) && ValidMarker(m)
    requires NoBracket(rest) && (rest == [] || !IsSpace(rest[|rest| - 1]))
    ensures Markers(['[', d] + (Render(m) + rest)) == [m]
    ensures CueText(['[', d] + (Render(m) + rest)) == ['[', d] + rest
  {
    var line := ['[', d] + (Render(m) + rest);
    SplicedLayout(d, m, rest, line);
    SplicedScan(d, m, rest, line);
    SplicedText(d, rest);
  }

  lemma SplicedScan(d: char, m: Marker, rest: string, line: string)
    requires ValidMarker(m) && NoBracket(rest)
    requires |line| > 2 && line[0] == '[' && line[1] == d && line[2..] == RenderAll([m]) + rest
    requires MatchAt(line, 0) == None && MatchAt(line, 1) == None
    ensures MarkersOf(Scan(line, 0)) == [m]
    ensures KeptText(Scan(line, 0)) == [line[0]] + ([line[1]] + rest)
  {
    assert MarkersOf(Scan(line, 2)) == [m] && KeptText(Scan(line, 2)) == rest by {
      NoBracketNoMatch(rest);
      ScanLeadingMarkers(line, 2, [m], rest);
    }
    assert MarkersOf(Scan(line, 1)) == [m] && KeptText(Scan(line, 1)) == [line[1]] + rest by {
      ScanKeptStep(line, 1);
    }
    ScanKeptStep(line, 0);
  }

  /** The first two characters of a spliced line are kept, and the marker follows. */
  lemma SplicedLayout(d: char, m: Marker, rest: string, line: string)
    requires IsDigit(d) && ValidMarker(m)
    requires rest == [] || !IsSpace(rest[|rest| - 1])
    requires line == ['[', d] + (Render(m) + rest)
    ensures |line| > 2 && line[0] == '[' && line[1] == d && line[2..] == RenderAll([m]) + rest
    ensures Strip(line) == line
    ensures MatchAt(line, 0) == None && MatchAt(line, 1) == None
  {
    var tail := Render(m) + rest;
    RenderOne(m);
    assert line[2..] == tail;
    SplicedEnds(d, tail, line);
    SplicedNoMatch(line);
  }

  lemma SplicedEnds(d: char, tail: string, line: string)
    requires IsDigit(d) && tail != [] && !IsSpace(tail[|tail| - 1])
    requires line == ['[', d] + tail
    ensures Strip(line) == line
  {
    assert line[|line| - 1] == tail[|tail| - 1];
    StripUnpadded(line);
  }

  /** `[` followed by a digit and another `[` starts no marker, and neither does the
      digit. */
  lemma SplicedNoMatch(line: string)
    requires |line| > 2 && line[0] == '[' && IsDigit(line[1]) && line[2] == '['
    ensures MatchAt(line, 0) == None && MatchAt(line, 1) == None
  {
    DigitRunEndsAt(line, 1, 2);
  }

  lemma SplicedText(d: char, rest: string)
    requires IsDigit(d) && (rest == [] || !IsSpace(rest[|rest| - 1]))
    ensures Strip([(['[', d] + rest)[0]] + ([(['[', d] + rest)[1]] + rest)) == ['[', d] + rest
  {
    var kept := ['[', d] + rest;
    assert [kept[0]] + ([kept[1]] + rest) == kept;
    assert kept[|kept| - 1] == (if rest == [] then d else rest[|rest| - 1]);
    StripUnpadded(kept);
  }

  /** Removing the markers can bring two pieces of text together into a new marker: in
      `[1[2:00]:00]Hi` the pattern finds `[2:00]`, and what is left is `[1:00]Hi`. So a
      cue text holds no marker of its original line, but it may hold one of its own. */
  lemma RemovalCanFormMarker(d: char, m: Marker, w: string, u: string)
    requires IsDigit(d) && ValidMarker(m) && ValidMarker(Marker([d], w, None))
    requires NoBracket(u) && (u == [] || !IsSpace(u[|u| - 1]))
    ensures Markers(['[', d] + (Render(m) + (":" + (w + ("]" + u))))) == [m]
    ensures CueText(['[', d] + (Render(m) + (":" + (w + ("]" + u))))) == Render(Marker([d], w, None)) + u
    ensures Markers(Render(Marker([d], w, None)) + u) == [Marker([d], w, None)]
  {
    var rest := ":" + (w + ("]" + u));
    var m' := Marker([d], w, None);
    RestWithoutBracket(w, u);
    RemovalSplices(d, m, rest);
    FormedMarker(d, w, u);
    RenderOne(m');
    NoBracketNoMatch(u);
    MarkedLineParts([m'], u);
  }

  lemma FormedMarker(d: char, w: string, u: string)
    ensures ['[', d] + (":" + (w + ("]" + u))) == Render(Marker([d], w, None)) + u
  {
  }

  lemma RestWithoutBracket(w: string, u: string)
    requires AllDigits(w) && NoBracket(u) && (u == [] || !IsSpace(u[|u| - 1]))
    ensures NoBracket(":" + (w + ("]" + u)))
    ensures var rest := ":" + (w + ("]" + u)); !IsSpace(rest[|rest| - 1])
  {
    var rest := ":" + (w + ("]" + u));
    forall k | 0 <= k < |rest|
      ensures rest[k] != '['
    {
      if 1 <= k < 1 + |w| {
        assert rest[k] == w[k - 1];
      } else if k > 1 + |w| {
        assert rest[k] == u[k - 2 - |w|];
      }
    }
    assert rest[|rest| - 1] == (if u == [] then ']' else u[|u| - 1]);
  }

  // ---------------------------------------------------------------------------
  // The whole file

  /** The entries of the lines in file order, before sorting. */
  function Unsorted(lines: seq<string>): (cues: seq<Cue>)
    ensures forall c :: c in cues ==> WellFormed(c)
    decreases |lines|
  {
    if lines == [] then []
    else
      LineCues(lines[0]) + Unsorted(lines[1..])
  }

  /** `parse_lrc` on the decoded text of a file: every line's entries, sorted by
      timestamp with entries at one timestamp kept in file order. */
  function ParseLrc(content: string): (cues: seq<Cue>)
    ensures Sorted(cues)
    ensures forall t :: At(cues, t) == At(Unsorted(Lines(FileLines, content)), t)
    ensures forall c :: c in cues ==> WellFormed(c)
  {
    var entries := Unsorted(Lines(FileLines, content));
    var r := SortByTs(entries);
    forall t
      ensures At(r, t) == At(entries, t)
    {
      SortKeepsTies(entries, t);
    }
    assert forall c :: c in r ==> c in multiset(entries);
    r
  }

  /** The parse result is the only sorted arrangement of the file's entries that keeps
      file order among equal timestamps, whatever stable sort produced it. */
  lemma ParseIsTheStableSort(content: string, other: seq<Cue>)
    requires Sorted(other)
    requires forall t :: At(other, t) == At(Unsorted(Lines(FileLines, content)), t)
    ensures other == ParseLrc(content)
  {
    SortedTiesDetermine(other, ParseLrc(content));
  }
}

=== FILE: player.dfy ===
/** The command line the script launches to play the audio file: a fixed table from
    player name to arguments, with sox's `play` as the fallback. */
module Player {
  import opened Text

  /** The players the script looks for on the PATH, in the order it tries them. */
  const DetectionOrder: seq<string> := ["mpv", "ffplay", "afplay", "cvlc", "vlc", "mplayer", "play"]

  /** `(player or 'play').strip()`: no name or an empty name means `play`. Stripping
      "play" would give "play" again (see PlayUnpadded), so only a given name is stripped. */
  function PlayerName(player: Option<string>): string {
    if player.None? || player.value == [] then "play" else Strip(player.value)
  }

  lemma PlayUnpadded()
    ensures Strip("play") == "play"
  {
    StripUnpadded("play");
  }

  /** The argument list for the player called `name` and the audio file `audio`. */
  function CommandFor(name: string, audio: string): (argv: seq<string>)
    ensures |argv| >= 2 && argv[|argv| - 1] == audio
    ensures argv[0] == if name in DetectionOrder then name else "play"
    ensures name !in DetectionOrder ==> argv == ["play", audio]
  {
    if name == "ffplay" then ["ffplay", "-nodisp", "-autoexit", "-loglevel", "quiet", audio]
    else if name == "mpv" then ["mpv", "--no-video", "--really-quiet", audio]
    else if name == "afplay" then ["afplay", audio]
    else if name == "cvlc" then ["cvlc", "--play-and-exit", "--no-video", audio]
    else if name == "vlc" then ["vlc", "--intf", "dummy", "--play-and-exit", "--no-video", audio]
    else if name == "mplayer" then ["mplayer", "-really-quiet", "-vo", "null", audio]
    else ["play", audio]
  }

  /** `build_player_cmd(player, audio)`: always one of the known players, with the audio
      file as the last argument; a known name, once stripped, is launched as itself. */
  function BuildPlayerCmd(player: Option<string>, audio: string): (argv: seq<string>)
    ensures |argv| >= 2 && argv[|argv| - 1] == audio
    ensures argv[0] in DetectionOrder
    ensures player.Some? && Strip(player.value) in DetectionOrder ==> argv[0] == Strip(player.value)
    ensures player.None? ==> argv == ["play", audio]
  {
    assert player.Some? && player.value == [] ==> Strip(player.value) == [];
    CommandFor(PlayerName(player), audio)
  }

  /** None of the names the detection tries has whitespace around it. */
  lemma DetectedNameUnpadded(p: string)
    requires p in DetectionOrder
    ensures Strip(p) == p
  {
    assert p != [] && !IsSpace(p[0]) && !IsSpace(p[|p| - 1]);
    StripUnpadded(p);
  }

  /** Every player the detection can pick is launched under its own name. */
  lemma DetectedPlayerLaunched(p: string, audio: string)
    requires p in DetectionOrder
    ensures BuildPlayerCmd(Some(p), audio)[0] == p
  {
    DetectedNameUnpadded(p);
    assert PlayerName(Some(p)) == p;
  }

  /** The audio path is passed as one final argument, as given: the options before it do
      not depend on it, whatever it looks like. */
  lemma AudioIsLastArgumentOnly(name: string, a: string, b: string)
    ensures var x, y := CommandFor(name, a), CommandFor(name, b);
      |x| == |y| && x[..|x| - 1] == y[..|y| - 1]
  {
  }

  /** Whitespace around the name does not matter. */
  lemma PaddedName(p: string, name: string, q: string, audio: string)
    requires AllSpace(p) && AllSpace(q)
    ensures BuildPlayerCmd(Some(p + name + q), audio) == BuildPlayerCmd(Some(name), audio)
  {
    StripIgnoresPadding(p, name, q);
    if name == [] {
      // an all-blank name strips to "", which, like "play", is not a special case
      assert Strip(name) == [];
      assert [] !in DetectionOrder;
      PlayUnpadded();
    } else {
      assert PlayerName(Some(p + name + q)) == PlayerName(Some(name));
    }
  }

  /** No player given, an empty name and `play` itself all launch sox's `play`. */
  lemma DefaultIsPlay(audio: string)
    ensures BuildPlayerCmd(None, audio) == ["play", audio]
    ensures BuildPlayerCmd(Some([]), audio) == ["play", audio]
    ensures BuildPlayerCmd(Some("play"), audio) == ["play", audio]
  {
    PlayUnpadded();
  }
}

=== FILE: prompts.dfy ===
/** The two interactive prompts of lrc-CLI.py, without the terminal: how a reply to
    "How many times to play?" is read, the loop that asks until a reply is accepted,
    and how `prompt_file_path` narrows the spellings of a path it will try. */
module Prompts {
  import opened Text

  // ---------------------------------------------------------------------------
  // Python's int() on a stripped reply

  /** The digits of an integer literal as `int()` accepts them: decimal digits, where a
      single underscore may separate two digits. */
  predicate Grouped(s: string) {
    |s| >= 1 && IsDigit(s[0]) && IsDigit(s[|s| - 1]) && forall k :: 0 <= k < |s| ==> GroupChar(s, k)
  }

  /** `s[k]` is a digit, or an underscore between two digits. */
  predicate GroupChar(s: string, k: nat)
    requires k < |s|
  {
    IsDigit(s[k]) || (s[k] == '_' && 0 < k < |s| - 1 && IsDigit(s[k - 1]) && IsDigit(s[k + 1]))
  }

  /** The digits of `s`, in order. */
  function DigitsOf(s: string): (r: string)
    ensures AllDigits(r)
    ensures AllDigits(s) ==> r == s
    decreases |s|
  {
    if s == [] then []
    else
      var rest := DigitsOf(s[..|s| - 1]);
      if IsDigit(s[|s| - 1]) then
        assert AllDigits(s) ==> AllDigits(s[..|s| - 1]);
        assert AllDigits(s) ==> s == s[..|s| - 1] + [s[|s| - 1]];
        rest + [s[|s| - 1]]
      else rest
  }

  /** `int(s)` for a string without surrounding whitespace: an optional sign, then
      grouped digits; anything else raises ValueError, here None. */
  function ParseInt(s: string): (r: Option<int>)
    ensures r.Some? ==> s != []
    ensures r.Some? && r.value < 0 ==> s[0] == '-'
  {
    if s != [] && (s[0] == '+' || s[0] == '-') then
      var body := s[1..];
      if !Grouped(body) then None
      else
        var v: int := DigitsValue(DigitsOf(body));
        Some(if s[0] == '-' then -v else v)
    else if Grouped(s) then Some(DigitsValue(DigitsOf(s)))
    else None
  }

  /** The decimal digits of `n`, most significant first: `str(n)` for n >= 0. */
  function NatDigits(n: nat): (s: string)
    ensures |s| >= 1 && AllDigits(s)
    decreases n
  {
    if n < 10 then [('0' as int + n) as char]
    else NatDigits(n / 10) + [('0' as int + n % 10) as char]
  }

  /** `str(n)`. */
  function Decimal(n: int): string {
    if n < 0 then "-" + NatDigits(-n) else NatDigits(n)
  }

  lemma {:induction false} NatDigitsValue(n: nat)
    ensures DigitsValue(NatDigits(n)) == n
    decreases n
  {
    var s := NatDigits(n);
    if n >= 10 {
      NatDigitsValue(n / 10);
      assert s[..|s| - 1] == NatDigits(n / 10);
    }
  }

  lemma AllDigitsGrouped(s: string)
    requires |s| >= 1 && AllDigits(s)
    ensures Grouped(s)
  {
  }

  /** `int(str(n)) == n`: every integer written in decimal reads back as itself. */
  lemma ParseDecimal(n: int)
    ensures ParseInt(Decimal(n)) == Some(n)
  {
    var d := NatDigits(if n < 0 then -n else n);
    NatDigitsValue(if n < 0 then -n else n);
    AllDigitsGrouped(d);
    if n < 0 {
      assert Decimal(n)[1..] == d;
    }
  }

  lemma DigitsOfSnoc(t: string, c: char)
    ensures DigitsOf(t + [c]) == DigitsOf(t) + (if IsDigit(c) then [c] else [])
  {
    var u := t + [c];
    assert u[..|u| - 1] == t && u[|u| - 1] == c;
  }

  lemma DigitsValueSnoc(t: string, c: char)
    requires AllDigits(t) && IsDigit(c)
    ensures AllDigits(t + [c]) && DigitsValue(t + [c]) == DigitsValue(t) * 10 + DigitValue(c)
  {
    var u := t + [c];
    assert u[..|u| - 1] == t && u[|u| - 1] == c;
  }

  /** The digits of two strings joined are the digits of each, joined. */
  lemma {:induction false} DigitsOfAppend(a: string, b: string)
    ensures DigitsOf(a + b) == DigitsOf(a) + DigitsOf(b)
    decreases |b|
  {
    if b == [] {
      assert a + b == a;
    } else {
      var b', c := b[..|b| - 1], b[|b| - 1];
      assert a + b == (a + b') + [c] && b == b' + [c];
      DigitsOfSnoc(a + b', c);
      DigitsOfSnoc(b', c);
      DigitsOfAppend(a, b');
    }
  }

  /** The value of digits joined: the first part shifted left by the length of the
      second. */
  lemma {:induction false} DigitsValueAppend(a: string, b: string)
    requires AllDigits(a) && AllDigits(b)
    ensures DigitsValue(a + b) == DigitsValue(a) * Pow10(|b|) + DigitsValue(b)
    decreases |b|
  {
    if b == [] {
      assert a + b == a;
    } else {
      var b', c := b[..|b| - 1], b[|b| - 1];
      assert a + b == (a + b') + [c] && b == b' + [c];
      assert AllDigits(a + b');
      DigitsValueSnoc(a + b', c);
      DigitsValueSnoc(b', c);
      DigitsValueAppend(a, b');
      assert Pow10(|b|) == Pow10(|b'|) * 10;
      ShiftStep(DigitsValue(a), Pow10(|b'|), DigitsValue(b'), DigitValue(c));
    }
  }

  lemma ShiftStep(x: int, p: int, v: int, d: int)
    ensures (x * p + v) * 10 + d == x * (p * 10) + (v * 10 + d)
  {
  }

  predicate AllZeros(z: string) {
    forall k :: 0 <= k < |z| ==> z[k] == '0'
  }

  lemma {:induction false} ZerosValue(z: string)
    requires AllZeros(z)
    ensures AllDigits(z) && DigitsValue(z) == 0
    decreases |z|
  {
    if z != [] {
      ZerosValue(z[..|z| - 1]);
    }
  }

  /** Grouped digits, possibly followed by the underscore that opens the next group:
      what may come before grouped digits and keep the whole grouped. */
  predicate GroupedLead(a: string) {
    || Grouped(a)
    || (|a| >= 2 && a[|a| - 1] == '_' && Grouped(a[..|a| - 1]))
  }

  lemma GroupedJoin(a: string, b: string)
    requires a == [] || GroupedLead(a)
    requires Grouped(b)
    ensures Grouped(a + b)
  {
    if a == [] {
      assert a + b == b;
    } else {
      var ab := a + b;
      assert ab[0] == a[0];
      if !Grouped(a) {
        assert a[..|a| - 1][0] == a[0];
      }
      assert ab[|ab| - 1] == b[|b| - 1];
      forall k | 0 <= k < |ab|
        ensures GroupChar(ab, k)
      {
        if k < |a| {
          GroupedLeadAt(a, b, k);
        } else {
          assert ab[k] == b[k - |a|] && GroupChar(b, k - |a|);
          if !IsDigit(ab[k]) {
            assert ab[k - 1] == b[k - |a| - 1];
            assert ab[k + 1] == b[k - |a| + 1];
          }
        }
      }
    }
  }

  lemma GroupedLeadAt(a: string, b: string, k: nat)
    requires GroupedLead(a) && Grouped(b) && k < |a|
    ensures GroupChar(a + b, k)
  {
    var ab := a + b;
    assert ab[k] == a[k];
    if !IsDigit(a[k]) {
      if Grouped(a) {
        assert GroupChar(a, k);
        assert ab[k - 1] == a[k - 1] && ab[k + 1] == a[k + 1];
      } else {
        var g := a[..|a| - 1];
        if k == |a| - 1 {
          assert ab[k - 1] == g[|g| - 1];
          assert ab[k + 1] == b[0];
        } else {
          assert a[k] == g[k] && GroupChar(g, k);
          assert ab[k - 1] == g[k - 1] && ab[k + 1] == g[k + 1];
        }
      }
    }
  }

  /** Grouped digits with no sign read as the value of their digits. */
  lemma ParseGrouped(s: string)
    requires Grouped(s)
    ensures ParseInt(s) == Some(DigitsValue(DigitsOf(s)))
  {
    assert s[0] != '+' && s[0] != '-';
  }

  /** A sign followed by grouped digits reads as their value, negated after `-`. */
  lemma ParseSign(c: char, s: string)
    requires (c == '+' || c == '-') && Grouped(s)
    ensures var v: int := DigitsValue(DigitsOf(s)); ParseInt([c] + s) == Some(if c == '-' then -v else v)
  {
    var t := [c] + s;
    assert t[0] == c && t[1..] == s;
  }

  /** `int("+" + s) == int(s)` for grouped digits `s`. */
  lemma ParsePlus(s: string)
    requires Grouped(s)
    ensures ParseInt("+" + s) == ParseInt(s)
  {
    assert "+" + s == ['+'] + s;
    ParseSign('+', s);
    ParseGrouped(s);
  }

  /** `int("-" + s) == -int(s)` for grouped digits `s`. */
  lemma ParseMinus(s: string)
    requires Grouped(s)
    ensures ParseInt(s).Some? && ParseInt("-" + s) == Some(-ParseInt(s).value)
  {
    assert "-" + s == ['-'] + s;
    ParseSign('-', s);
    ParseGrouped(s);
  }

  /** Leading zeros do not change what `int()` reads: `int("007") == 7`. */
  lemma ParseLeadingZeros(z: string, s: string)
    requires AllZeros(z) && Grouped(s)
    ensures ParseInt(z + s) == ParseInt(s)
  {
    ZerosValue(z);
    if z != [] {
      AllDigitsGrouped(z);
    }
    GroupedJoin(z, s);
    ParseGrouped(z + s);
    ParseGrouped(s);
    DigitsOfAppend(z, s);
    DigitsValueAppend(z, DigitsOf(s));
  }

  /** An underscore contributes no digit. */
  lemma DigitsSkipUnderscore(x: string, y: string)
    ensures DigitsOf(x + "_" + y) == DigitsOf(x + y)
  {
    DigitsOfAppend(x + "_", y);
    DigitsOfAppend(x, "_");
    assert "_"[..0] == [];
    assert DigitsOf("_") == [];
    DigitsOfAppend(x, y);
  }

  /** A single underscore between digits does not change what `int()` reads:
      `int("1_000") == int("1000")`. */
  lemma ParseUnderscore(x: string, y: string)
    requires Grouped(x) && Grouped(y)
    ensures ParseInt(x + y).Some? && ParseInt(x + "_" + y) == ParseInt(x + y)
  {
    GroupedJoin(x, y);
    assert (x + "_")[..|x|] == x;
    GroupedJoin(x + "_", y);
    ParseGrouped(x + "_" + y);
    ParseGrouped(x + y);
    DigitsSkipUnderscore(x, y);
  }

  // ---------------------------------------------------------------------------
  // prompt_loop_count

  /** How many times to play: a number of times, or forever (the script's None). */
  datatype Count = Times(n: nat) | Forever

  /** What one reply leads to: a count, or the prompt again after the message for a
      negative number or for something that is not an integer. */
  datatype Reply = Accept(count: Count) | Negative | NotANumber

  /** What a reply leads to once its surrounding whitespace is gone. */
  function ReplyTo(v: string): (r: Reply)
    ensures r.Accept? && r.count.Times? ==> r.count.n >= 1
    ensures v == [] ==> r == Accept(Times(1))
  {
    if v == [] then Accept(Times(1))
    else
      match ParseInt(v)
      case None => NotANumber
      case Some(n) =>
        if n < 0 then Negative
        else if n == 0 then Accept(Forever)
        else Accept(Times(n))
  }

  /** The reply to one line typed at the loop-count prompt: a blank line plays once, a
      count is never 0 times, and only text `int()` refuses is not a number. */
  function LoopCountReply(input: string): (r: Reply)
    ensures AllSpace(input) ==> r == Accept(Times(1))
    ensures r.Accept? && r.count.Times? ==> r.count.n >= 1
    ensures r == NotANumber <==> !AllSpace(input) && ParseInt(Strip(input)).None?
  {
    ReplyTo(Strip(input))
  }

  /** The reply to a number written in decimal. */
  lemma DecimalReply(n: int)
    ensures ReplyTo(Decimal(n)) ==
      if n < 0 then Negative else if n == 0 then Accept(Forever) else Accept(Times(n))
  {
    ParseDecimal(n);
  }

  /** A number in decimal neither starts nor ends with whitespace. */
  lemma DecimalUnpadded(n: int)
    ensures Strip(Decimal(n)) == Decimal(n)
  {
    var d := Decimal(n);
    var m := if n < 0 then -n else n;
    assert d[|d| - 1] == NatDigits(m)[|NatDigits(m)| - 1];
    StripUnpadded(d);
  }

  /** A number reply, however it is padded: 0 loops forever, a positive n plays n times,
      and a negative number is refused. */
  lemma NumberReply(p: string, n: int, q: string)
    requires AllSpace(p) && AllSpace(q)
    ensures LoopCountReply(p + Decimal(n) + q) ==
      if n < 0 then Negative else if n == 0 then Accept(Forever) else Accept(Times(n))
  {
    StripIgnoresPadding(p, Decimal(n), q);
    DecimalUnpadded(n);
    DecimalReply(n);
  }

  /** The prompt loop over the replies the lines typed lead to: the count of the first
      accepted reply, and how many replies were read to reach it. */
  method FirstAccepted(replies: seq<Reply>) returns (count: Option<Count>, asked: nat)
    ensures asked <= |replies|
    ensures count.Some? ==> asked >= 1 && replies[asked - 1] == Accept(count.value)
    ensures count.None? ==> asked == |replies|
    ensures forall k :: 0 <= k < |replies| && k < (if count.Some? then asked - 1 else asked) ==>
      !replies[k].Accept?
  {
    asked := 0;
    while asked < |replies|
      invariant asked <= |replies|
      invariant forall k :: 0 <= k < asked ==> !replies[k].Accept?
    {
      var reply := replies[asked];
      asked := asked + 1;
      if reply.Accept? {
        return Some(reply.count), asked;
      }
    }
    return None, asked;
  }

  /** `prompt_loop_count`: ask again until a reply is accepted. `inputs` are the lines
      typed, in order; if they run out first, no count is returned. */
  method PromptLoopCount(inputs: seq<string>) returns (count: Option<Count>, asked: nat)
    ensures asked <= |inputs|
    ensures count.Some? ==> asked >= 1 && LoopCountReply(inputs[asked - 1]) == Accept(count.value)
    ensures count.None? ==> asked == |inputs|
    ensures forall k :: 0 <= k < |inputs| && k < (if count.Some? then asked - 1 else asked) ==>
      !LoopCountReply(inputs[k]).Accept?
  {
    var replies := seq(|inputs|, k requires 0 <= k < |inputs| => LoopCountReply(inputs[k]));
    count, asked := FirstAccepted(replies);
    forall k | 0 <= k < |inputs| && k < (if count.Some? then asked - 1 else asked)
      ensures !LoopCountReply(inputs[k]).Accept?
    {
      assert replies[k] == LoopCountReply(inputs[k]);
    }
    if count.Some? {
      assert replies[asked - 1] == LoopCountReply(inputs[asked - 1]);
    }
  }

  // ---------------------------------------------------------------------------
  // The spellings prompt_file_path tries

  /** Each candidate stripped. */
  function StrippedAll(cands: seq<string>): (r: seq<string>)
    ensures |r| == |cands|
    ensures forall k :: 0 <= k < |cands| ==> r[k] == Strip(cands[k])
  {
    seq(|cands|, k requires 0 <= k < |cands| => Strip(cands[k]))
  }

  /** The position of the first occurrence of `x` in `s`. */
  function FirstIndex(s: seq<string>, x: string): (i: nat)
    requires x in s
    ensures i < |s| && s[i] == x && x !in s[..i]
    decreases |s|
  {
    if s[0] == x then 0
    else
      assert x in s[1..];
      var j := FirstIndex(s[1..], x);
      assert s[..j + 1] == [s[0]] + s[1..][..j];
      j + 1
  }

  predicate Distinct(s: seq<string>) {
    forall i, j :: 0 <= i < j < |s| ==> s[i] != s[j]
  }

  /** `filtered` holds the non-blank spellings among the first `k` of `all`, once
      each, in first-occurrence order. */
  ghost predicate DedupSoFar(all: seq<string>, k: nat, filtered: seq<string>)
    requires k <= |all|
  {
    && (forall i :: 0 <= i < |filtered| ==> filtered[i] in all[..k])
    && Distinct(filtered)
    && (forall x :: x in filtered <==> x != [] && x in all[..k])
    && (forall i, j :: 0 <= i < j < |filtered| ==>
          FirstIndex(all, filtered[i]) < FirstIndex(all, filtered[j]))
  }

  /** The de-duplication of `prompt_file_path`: each candidate stripped, blanks
      dropped, and every spelling kept once, where it first appears. */
  method DedupCandidates(cands: seq<string>) returns (filtered: seq<string>)
    ensures Distinct(filtered)
    ensures forall x :: x in filtered <==> x != [] && x in StrippedAll(cands)
    ensures forall i, j :: 0 <= i < j < |filtered| ==>
      FirstIndex(StrippedAll(cands), filtered[i]) < FirstIndex(StrippedAll(cands), filtered[j])
  {
    var all := StrippedAll(cands);
    var seen: set<string> := {};
    filtered := [];
    for k := 0 to |cands|
      invariant seen == set x | x in filtered
      invariant DedupSoFar(all, k, filtered)
    {
      var cc := Strip(cands[k]);
      if cc != [] && cc !in seen {
        DedupKeep(all, k, filtered);
        seen := seen + {cc};
        filtered := filtered + [cc];
      } else {
        DedupSkip(all, k, filtered);
      }
    }
    assert all[..|cands|] == all;
  }

  /** A spelling met for the first time is appended. */
  lemma DedupKeep(all: seq<string>, k: nat, filtered: seq<string>)
    requires k < |all| && DedupSoFar(all, k, filtered)
    requires all[k] != [] && all[k] !in filtered
    ensures DedupSoFar(all, k + 1, filtered + [all[k]])
  {
    var f := filtered + [all[k]];
    assert all[..k + 1] == all[..k] + [all[k]];
    FirstIndexAt(all, k);
    forall i | 0 <= i < |filtered|
      ensures FirstIndex(all, filtered[i]) < k
    {
      var x := filtered[i];
      var m :| 0 <= m < k && all[..k][m] == x;
      assert all[m] == x;
    }
    assert forall x :: x in f <==> x in filtered || x == all[k];
  }

  /** A blank or already kept spelling changes nothing. */
  lemma DedupSkip(all: seq<string>, k: nat, filtered: seq<string>)
    requires k < |all| && DedupSoFar(all, k, filtered)
    requires all[k] == [] || all[k] in filtered
    ensures DedupSoFar(all, k + 1, filtered)
  {
    assert all[..k + 1] == all[..k] + [all[k]];
  }

  /** An element first met at position `k` has first index `k`. */
  lemma FirstIndexAt(s: seq<string>, k: nat)
    requires k < |s| && s[k] !in s[..k]
    ensures FirstIndex(s, s[k]) == k
  {
  }

  /** The result of the de-duplication is fully determined by what it states: two lists
      of distinct spellings with the same members, both in first-occurrence order, are
      equal. */
  lemma {:induction false} DedupDetermined(all: seq<string>, a: seq<string>, b: seq<string>)
    requires Distinct(a) && Distinct(b)
    requires forall x :: x in a ==> x in all
    requires forall x :: x in a <==> x in b
    requires forall i, j :: 0 <= i < j < |a| ==> FirstIndex(all, a[i]) < FirstIndex(all, a[j])
    requires forall i, j :: 0 <= i < j < |b| ==> FirstIndex(all, b[i]) < FirstIndex(all, b[j])
    ensures a == b
    decreases |a|
  {
    SameMembersEmpty(a, b);
    if a != [] {
      SameHead(all, a, b);
      SameTailMembers(a, b);
      DedupDetermined(all, a[1..], b[1..]);
      assert a == [a[0]] + a[1..] && b == [b[0]] + b[1..];
    }
  }

  lemma SameMembersEmpty(a: seq<string>, b: seq<string>)
    requires forall x :: x in a <==> x in b
    ensures a == [] <==> b == []
  {
    if a != [] {
      assert a[0] in a;
    }
    if b != [] {
      assert b[0] in b;
    }
  }

  /** Both lists start with the member that appears first. */
  lemma SameHead(all: seq<string>, a: seq<string>, b: seq<string>)
    requires a != [] && b != []
    requires forall x :: x in a ==> x in all
    requires forall x :: x in a <==> x in b
    requires forall i, j :: 0 <= i < j < |a| ==> FirstIndex(all, a[i]) < FirstIndex(all, a[j])
    requires forall i, j :: 0 <= i < j < |b| ==> FirstIndex(all, b[i]) < FirstIndex(all, b[j])
    ensures a[0] == b[0]
  {
    assert a[0] in a && b[0] in b;
    var i :| 0 <= i < |a| && a[i] == b[0];
    var j :| 0 <= j < |b| && b[j] == a[0];
  }

  /** With the same head removed, the rest still have the same members. */
  lemma SameTailMembers(a: seq<string>, b: seq<string>)
    requires a != [] && b != [] && a[0] == b[0]
    requires Distinct(a) && Distinct(b)
    requires forall x :: x in a <==> x in b
    ensures forall x :: x in a[1..] <==> x in b[1..]
  {
    forall x
      ensures x in a[1..] ==> x in b[1..]
    {
      if x in a[1..] {
        var i :| 1 <= i < |a| && a[i] == x;
        assert x != a[0] && x in a;
        var j :| 0 <= j < |b| && b[j] == x;
        assert b[1..][j - 1] == x;
      }
    }
    forall x
      ensures x in b[1..] ==> x in a[1..]
    {
      if x in b[1..] {
        var j :| 1 <= j < |b| && b[j] == x;
        assert x != b[0] && x in b;
        var i :| 0 <= i < |a| && a[i] == x;
        assert a[1..][i - 1] == x;
      }
    }
  }
}

=== FILE: scheduler.dfy ===
/** `display_loop` of lrc-CLI.py against an abstract clock. The clock is the value
    `time.time()` returned when the loop started, followed by the values it returns on
    each later call, in order; sleeping and clearing the screen only pass time and are
    not modelled. A finite list of readings stands for as much of the run as the clock
    is observed for, so a run may also end because the readings ran out. */
module Scheduler {
  import opened Cues

  /** `math.ceil` on an exact real. */
  function Ceil(x: real): (n: int)
    ensures x <= n as real < x + 1.0
  {
    if x.Floor as real == x then x.Floor else x.Floor + 1
  }

  /** One countdown screen: the number shown and the clock reading it was computed from. */
  datatype Tick = Tick(value: int, reading: nat)

  /** One lyric screen: the text shown and the clock reading that let it through. */
  datatype Frame = Frame(text: string, reading: nat)

  /** What a call shows: the "no lyrics" message, or countdown screens followed by lyric
      screens; `complete` says every lyric was shown. */
  datatype Run = NoLyrics | Played(countdown: seq<Tick>, lyrics: seq<Frame>, complete: bool)

  /** Seconds since the loop started, at reading `r`. */
  function Elapsed(start: real, polls: seq<real>, r: nat): real
    requires r < |polls|
  {
    polls[r] - start
  }

  /** The countdown screens: at each reading before the first timestamp falls due, the
      ceiling of the time remaining to it; the countdown ends at the first reading at
      which nothing remains. */
  predicate CountdownShown(first: real, start: real, polls: seq<real>, ticks: seq<Tick>) {
    && |ticks| <= |polls|
    && (forall j :: 0 <= j < |ticks| ==>
          && first - Elapsed(start, polls, j) > 0.0
          && ticks[j] == Tick(Ceil(first - Elapsed(start, polls, j)), j))
    && (|ticks| < |polls| ==> first - Elapsed(start, polls, |ticks|) <= 0.0)
  }

  /** Reading `r` is the first one from `w` on at which cue `c` is due. */
  predicate DueAt(c: Cue, start: real, polls: seq<real>, w: nat, r: nat) {
    && w <= r < |polls|
    && Elapsed(start, polls, r) >= c.ts
    && forall k :: w <= k < r ==> Elapsed(start, polls, k) < c.ts
  }

  /** Cue `c` is not due at any reading from `w` on. */
  predicate NeverDue(c: Cue, start: real, polls: seq<real>, w: nat) {
    forall k :: w <= k < |polls| ==> Elapsed(start, polls, k) < c.ts
  }

  /** The first reading the wait for lyric `i` looks at: the one after the reading that
      showed the lyric before it, or `from` for the first lyric. */
  function WaitFrom(from: nat, frames: seq<Frame>, i: nat): nat
    requires i <= |frames|
  {
    if i == 0 then from else frames[i - 1].reading + 1
  }

  /** Lyric `i` was shown at the first reading of its wait at which it was due. */
  predicate ShownAt(cues: seq<Cue>, start: real, polls: seq<real>, from: nat, frames: seq<Frame>, i: nat)
    requires i < |frames| && i < |cues|
  {
    && frames[i].text == cues[i].text
    && DueAt(cues[i], start, polls, WaitFrom(from, frames, i), frames[i].reading)
  }

  /** The lyric screens so far, waiting from reading `from`: the first lyrics in order,
      each shown at the first reading of its wait at which it is due. */
  predicate ShownSoFar(cues: seq<Cue>, start: real, polls: seq<real>, from: nat, frames: seq<Frame>) {
    && |frames| <= |cues|
    && forall i :: 0 <= i < |frames| ==> ShownAt(cues, start, polls, from, frames, i)
  }

  /** All the lyric screens: if not every lyric was shown, the next one never fell due. */
  predicate LyricsShown(cues: seq<Cue>, start: real, polls: seq<real>, from: nat, frames: seq<Frame>) {
    && ShownSoFar(cues, start, polls, from, frames)
    && (|frames| < |cues| ==> NeverDue(cues[|frames|], start, polls, WaitFrom(from, frames, |frames|)))
  }

  /** What `display_loop` shows for `cues` against the clock. After the countdown ends
      at some reading, the first lyric waits from the next one. */
  predicate DisplayRun(cues: seq<Cue>, start: real, polls: seq<real>, run: Run) {
    if cues == [] then run == NoLyrics
    else
      && run.Played?
      && CountdownShown(cues[0].ts, start, polls, run.countdown)
      && (if |run.countdown| == |polls| then run.lyrics == []
          else LyricsShown(cues, start, polls, |run.countdown| + 1, run.lyrics))
      && (run.complete <==> |run.lyrics| == |cues|)
  }

  /** The loop itself: the countdown, then each lyric in turn. */
  method DisplayLoop(cues: seq<Cue>, start: real, polls: seq<real>) returns (run: Run)
    ensures DisplayRun(cues, start, polls, run)
  {
    if cues == [] {
      return NoLyrics;
    }
    var ticks := RunCountdown(cues[0].ts, start, polls);
    if |ticks| == |polls| {
      return Played(ticks, [], false);
    }
    var frames := ShowLyrics(cues, start, polls, |ticks| + 1);
    return Played(ticks, frames, |frames| == |cues|);
  }

  /** The countdown loop: read the clock; stop once nothing remains before the first
      timestamp, otherwise show the ceiling of what remains. */
  method RunCountdown(first: real, start: real, polls: seq<real>) returns (ticks: seq<Tick>)
    ensures CountdownShown(first, start, polls, ticks)
  {
    ticks := [];
    var r := 0;
    while r < |polls| && first - (polls[r] - start) > 0.0
      invariant r == |ticks| <= |polls|
      invariant forall j :: 0 <= j < r ==>
        && first - Elapsed(start, polls, j) > 0.0
        && ticks[j] == Tick(Ceil(first - Elapsed(start, polls, j)), j)
    {
      ticks := ticks + [Tick(Ceil(first - (polls[r] - start)), r)];
      r := r + 1;
    }
  }

  /** The inner wait of one lyric: read the clock from reading `w` on until the cue is
      due. Returns the reading that let it through, or `|polls|` if none did. */
  method WaitFor(c: Cue, start: real, polls: seq<real>, w: nat) returns (r: nat)
    requires w <= |polls|
    ensures w <= r <= |polls|
    ensures r == |polls| ==> NeverDue(c, start, polls, w)
    ensures r < |polls| ==> DueAt(c, start, polls, w, r)
  {
    r := w;
    while r < |polls| && polls[r] - start < c.ts
      invariant w <= r <= |polls|
      invariant forall k :: w <= k < r ==> Elapsed(start, polls, k) < c.ts
    {
      r := r + 1;
    }
  }

  /** The lyric loop, its first wait starting at reading `from`. */
  method ShowLyrics(cues: seq<Cue>, start: real, polls: seq<real>, from: nat) returns (frames: seq<Frame>)
    requires from <= |polls|
    ensures LyricsShown(cues, start, polls, from, frames)
  {
    frames := [];
    var r := from;
    while |frames| < |cues|
      invariant r == WaitFrom(from, frames, |frames|) <= |polls|
      invariant ShownSoFar(cues, start, polls, from, frames)
    {
      var shown := WaitFor(cues[|frames|], start, polls, r);
      if shown == |polls| {
        return;
      }
      ShownOneMore(cues, start, polls, from, frames, shown);
      frames := frames + [Frame(cues[|frames|].text, shown)];
      r := shown + 1;
    }
  }

  /** Showing the next lyric at the first reading of its wait at which it is due
      extends the screens so far. */
  lemma ShownOneMore(cues: seq<Cue>, start: real, polls: seq<real>, from: nat, frames: seq<Frame>, r: nat)
    requires ShownSoFar(cues, start, polls, from, frames) && |frames| < |cues|
    requires DueAt(cues[|frames|], start, polls, WaitFrom(from, frames, |frames|), r)
    ensures var more := frames + [Frame(cues[|frames|].text, r)];
      ShownSoFar(cues, start, polls, from, more) && WaitFrom(from, more, |more|) == r + 1
  {
    var more := frames + [Frame(cues[|frames|].text, r)];
    forall i | 0 <= i < |more|
      ensures ShownAt(cues, start, polls, from, more, i)
    {
      assert WaitFrom(from, more, i) == WaitFrom(from, frames, i) by {
        if i > 0 {
          assert more[i - 1] == frames[i - 1];
        }
      }
      if i < |frames| {
        assert more[i] == frames[i];
        assert ShownAt(cues, start, polls, from, frames, i);
      }
    }
  }

  // ---------------------------------------------------------------------------
  // Properties of a run

  predicate NonDecreasing(polls: seq<real>) {
    forall j, k :: 0 <= j < k < |polls| ==> polls[j] <= polls[k]
  }

  lemma CeilMonotone(x: real, y: real)
    requires x <= y
    ensures Ceil(x) <= Ceil(y)
  {
  }

  /** Every countdown number is at least 1, and on a clock that does not go backwards
      the numbers never go up. */
  lemma CountdownDescends(first: real, start: real, polls: seq<real>, ticks: seq<Tick>)
    requires CountdownShown(first, start, polls, ticks)
    ensures forall j :: 0 <= j < |ticks| ==> ticks[j].value >= 1
    ensures NonDecreasing(polls) ==>
      forall j, k :: 0 <= j < k < |ticks| ==> ticks[k].value <= ticks[j].value
  {
    if NonDecreasing(polls) {
      forall j, k | 0 <= j < k < |ticks|
        ensures ticks[k].value <= ticks[j].value
      {
        CeilMonotone(first - Elapsed(start, polls, k), first - Elapsed(start, polls, j));
      }
    }
  }

  /** The first reading at which a cue is due is unique. */
  lemma DueAtUnique(c: Cue, start: real, polls: seq<real>, w: nat, r1: nat, r2: nat)
    requires DueAt(c, start, polls, w, r1) && DueAt(c, start, polls, w, r2)
    ensures r1 == r2
  {
  }

  lemma {:induction false} SameFrames(cues: seq<Cue>, start: real, polls: seq<real>, from: nat,
                                      fa: seq<Frame>, fb: seq<Frame>, n: nat)
    requires ShownSoFar(cues, start, polls, from, fa) && ShownSoFar(cues, start, polls, from, fb)
    requires n <= |fa| && n <= |fb|
    ensures fa[..n] == fb[..n]
  {
    if n > 0 {
      SameFrames(cues, start, polls, from, fa, fb, n - 1);
      assert ShownAt(cues, start, polls, from, fa, n - 1);
      assert ShownAt(cues, start, polls, from, fb, n - 1);
      assert WaitFrom(from, fa, n - 1) == WaitFrom(from, fb, n - 1) by {
        if n > 1 {
          assert fa[n - 2] == fa[..n - 1][n - 2] && fb[n - 2] == fb[..n - 1][n - 2];
        }
      }
      DueAtUnique(cues[n - 1], start, polls, WaitFrom(from, fa, n - 1), fa[n - 1].reading, fb[n - 1].reading);
      assert fa[..n] == fa[..n - 1] + [fa[n - 1]];
      assert fb[..n] == fb[..n - 1] + [fb[n - 1]];
    }
  }

  /** The lyric screens are determined by the cues and the clock. */
  lemma LyricsDetermined(cues: seq<Cue>, start: real, polls: seq<real>, from: nat, fa: seq<Frame>, fb: seq<Frame>)
    requires LyricsShown(cues, start, polls, from, fa) && LyricsShown(cues, start, polls, from, fb)
    ensures fa == fb
  {
    if |fa| < |fb| {
      SameFrames(cues, start, polls, from, fa, fb, |fa|);
      DueAfterPrefix(cues, start, polls, from, fa, fb);
      assert false;
    } else if |fb| < |fa| {
      SameFrames(cues, start, polls, from, fb, fa, |fb|);
      DueAfterPrefix(cues, start, polls, from, fb, fa);
      assert false;
    } else {
      SameFrames(cues, start, polls, from, fa, fb, |fa|);
      assert fa == fa[..|fa|] && fb == fb[..|fb|];
    }
  }

  /** If the screens `long` go on past `short`, the lyric after `short` fell due in the
      wait that follows it. */
  lemma DueAfterPrefix(cues: seq<Cue>, start: real, polls: seq<real>, from: nat, short: seq<Frame>, long: seq<Frame>)
    requires ShownSoFar(cues, start, polls, from, long)
    requires |short| < |long| && short == long[..|short|]
    ensures DueAt(cues[|short|], start, polls, WaitFrom(from, short, |short|), long[|short|].reading)
  {
    assert ShownAt(cues, start, polls, from, long, |short|);
    if |short| > 0 {
      assert short[|short| - 1] == long[|short| - 1];
    }
  }

  /** `display_loop` is deterministic: the cues and the clock fix everything it shows. */
  lemma DisplayRunUnique(cues: seq<Cue>, start: real, polls: seq<real>, a: Run, b: Run)
    requires DisplayRun(cues, start, polls, a) && DisplayRun(cues, start, polls, b)
    ensures a == b
  {
    if cues != [] {
      var first := cues[0].ts;
      assert a.countdown == b.countdown;
      if |a.countdown| < |polls| {
        LyricsDetermined(cues, start, polls, |a.countdown| + 1, a.lyrics, b.lyrics);
      }
    }
  }

  /** A cue is shown no later than a reading in its wait at which it is due. */
  lemma DueNoLaterThan(c: Cue, start: real, polls: seq<real>, w: nat, r: nat, k: nat)
    requires DueAt(c, start, polls, w, r)
    requires w <= k < |polls| && Elapsed(start, polls, k) >= c.ts
    ensures r <= k
  {
  }

  /** Each lyric is shown at a reading after the previous lyric's, and the first one
      after the wait starts. */
  lemma {:induction false} ReadingsIncrease(cues: seq<Cue>, start: real, polls: seq<real>, from: nat, frames: seq<Frame>)
    requires ShownSoFar(cues, start, polls, from, frames)
    ensures forall i :: 0 <= i < |frames| ==> from + i <= frames[i].reading < |polls|
    ensures forall i, j :: 0 <= i < j < |frames| ==> frames[i].reading < frames[j].reading
    decreases |frames|
  {
    if frames != [] {
      var n := |frames| - 1;
      var init := frames[..n];
      assert ShownSoFar(cues, start, polls, from, init) by {
        forall i | 0 <= i < n
          ensures ShownAt(cues, start, polls, from, init, i)
        {
          assert ShownAt(cues, start, polls, from, frames, i);
          if i > 0 {
            assert init[i - 1] == frames[i - 1];
          }
        }
      }
      ReadingsIncrease(cues, start, polls, from, init);
      assert ShownAt(cues, start, polls, from, frames, n);
      if n > 0 {
        assert init[n - 1] == frames[n - 1];
      }
      forall i | 0 <= i < n
        ensures frames[i].reading < frames[n].reading
      {
        assert init[i] == frames[i];
        if i < n - 1 {
          assert init[n - 1] == frames[n - 1];
        }
      }
      forall i | 0 <= i < n
        ensures from + i <= frames[i].reading < |polls|
      {
        assert init[i] == frames[i];
      }
    }
  }

  /** Once the clock stays past every timestamp from some reading on, and enough readings
      follow, the run shows every lyric, each within one reading per lyric of that point. */
  lemma EveryLyricShown(cues: seq<Cue>, start: real, polls: seq<real>, run: Run, last: real, k0: nat)
    requires DisplayRun(cues, start, polls, run) && cues != []
    requires forall i :: 0 <= i < |cues| ==> cues[i].ts <= last
    requires forall k :: k0 <= k < |polls| ==> Elapsed(start, polls, k) >= last
    requires k0 + |cues| < |polls|
    ensures run.complete
    ensures forall i :: 0 <= i < |run.lyrics| ==> run.lyrics[i].reading <= k0 + i + 1
  {
    assert cues[0].ts - Elapsed(start, polls, k0) <= 0.0;
    var from := |run.countdown| + 1;
    var frames := run.lyrics;
    assert from <= k0 + 1;
    var n := |frames|;
    WaitsBounded(cues, start, polls, from, frames, last, k0, n);
    var w := WaitFrom(from, frames, n);
    StopsOnlyIfNotDue(cues, start, polls, from, frames, if w < k0 then k0 else w);
  }

  /** If some lyric was not shown, the next one was not due at any reading of its wait. */
  lemma StopsOnlyIfNotDue(cues: seq<Cue>, start: real, polls: seq<real>, from: nat, frames: seq<Frame>, k: nat)
    requires LyricsShown(cues, start, polls, from, frames)
    ensures |frames| < |cues| && WaitFrom(from, frames, |frames|) <= k < |polls| ==>
      Elapsed(start, polls, k) < cues[|frames|].ts
  {
  }

  lemma {:induction false} WaitsBounded(cues: seq<Cue>, start: real, polls: seq<real>, from: nat,
                                        frames: seq<Frame>, last: real, k0: nat, n: nat)
    requires ShownSoFar(cues, start, polls, from, frames) && n <= |frames|
    requires forall i :: 0 <= i < |cues| ==> cues[i].ts <= last
    requires forall k :: k0 <= k < |polls| ==> Elapsed(start, polls, k) >= last
    requires k0 + |cues| < |polls| && from <= k0 + 1
    ensures WaitFrom(from, frames, n) <= k0 + n + 1
    ensures forall i :: 0 <= i < n ==> frames[i].reading <= k0 + i + 1
    decreases n
  {
    if n > 0 {
      var i := n - 1;
      WaitsBounded(cues, start, polls, from, frames, last, k0, i);
      var w := WaitFrom(from, frames, i);
      assert ShownAt(cues, start, polls, from, frames, i);
      var k := if w < k0 then k0 else w;
      DueNoLaterThan(cues[i], start, polls, w, frames[i].reading, k);
    }
  }

  /** On a clock that does not go backwards, a lyric whose timestamp is not later than
      the one before it is shown at the very next reading. */
  lemma TiesShownBackToBack(cues: seq<Cue>, start: real, polls: seq<real>, run: Run, i: nat)
    requires DisplayRun(cues, start, polls, run) && cues != [] && NonDecreasing(polls)
    requires i + 1 < |cues| && cues[i + 1].ts <= cues[i].ts
    requires i < |run.lyrics| && run.lyrics[i].reading + 1 < |polls|
    ensures i + 1 < |run.lyrics|
    ensures run.lyrics[i + 1].reading == run.lyrics[i].reading + 1
  {
    var from := |run.countdown| + 1;
    var frames := run.lyrics;
    var w := frames[i].reading + 1;
    assert ShownAt(cues, start, polls, from, frames, i);
    assert Elapsed(start, polls, w) >= cues[i + 1].ts;
    StopsOnlyIfNotDue(cues, start, polls, from, frames, w);
    assert ShownAt(cues, start, polls, from, frames, i + 1);
    DueNoLaterThan(cues[i + 1], start, polls, w, frames[i + 1].reading, w);
  }
}

=== FILE: screen.dfy ===
/** Where `center_display` puts a block of text: the blank rows above it and the spaces
    before each line, from the terminal size (80 by 24 when it cannot be read). Writing
    to the terminal is not modelled; the block is returned as the rows it would print. */
module Screen {
  import opened Text

  /** Columns and rows of the terminal. */
  datatype Size = Size(width: nat, height: nat)

  /** The size used when the terminal cannot be queried. */
  const Fallback := Size(80, 24)

  datatype Padding = Padding(left: nat, top: nat)

  /** The length of the longest line, 0 when there are none. */
  function MaxWidth(lines: seq<string>): (w: nat)
    ensures forall k :: 0 <= k < |lines| ==> |lines[k]| <= w
    ensures lines != [] ==> exists k :: 0 <= k < |lines| && |lines[k]| == w
    ensures lines == [] ==> w == 0
  {
    if lines == [] then 0
    else
      var rest := MaxWidth(lines[1..]);
      assert forall k :: 1 <= k < |lines| ==> lines[k] == lines[1..][k - 1];
      if |lines[0]| >= rest then |lines[0]| else rest
  }

  /** `max((room - used) // 2, 0)`. Python's `//` rounds down, as Dafny's `/` does for a
      positive divisor, so the two agree also when `used` exceeds `room`. */
  function Half(room: nat, used: nat): (pad: nat)
    ensures used >= room ==> pad == 0
    ensures used < room ==> used + 2 * pad <= room <= used + 2 * pad + 1
  {
    var d := (room - used) / 2;
    if d < 0 then 0 else d
  }

  /** The size `center_display` works with: the terminal's, or the fallback when it
      cannot be read. */
  function Terminal(size: Option<Size>): (s: Size)
    ensures size.None? ==> s == Size(80, 24)
    ensures size.Some? ==> s == size.value
  {
    if size.Some? then size.value else Fallback
  }

  /** The padding for `text`: when the text fits the terminal, the widest line has as
      much room on its left as on its right, give or take one column, and the lines
      sit in the middle rows the same way. A block wider or taller than the terminal is
      not shifted at all in that direction. */
  function CenterPadding(text: string, size: Option<Size>): (pad: Padding)
    ensures var s, lines := Terminal(size), Lines(SplitLines, text);
      && (MaxWidth(lines) <= s.width ==>
            && (forall k :: 0 <= k < |lines| ==> pad.left + |lines[k]| <= s.width)
            && 0 <= s.width - (pad.left + MaxWidth(lines)) - pad.left <= 1)
      && (MaxWidth(lines) >= s.width ==> pad.left == 0)
      && (|lines| <= s.height ==> 0 <= s.height - (pad.top + |lines|) - pad.top <= 1)
      && (|lines| >= s.height ==> pad.top == 0)
  {
    var s := Terminal(size);
    var lines := Lines(SplitLines, text);
    Padding(Half(s.width, MaxWidth(lines)), Half(s.height, |lines|))
  }

  /** `" " * n`. */
  function Spaces(n: nat): (r: string)
    ensures |r| == n && AllSpace(r)
    ensures forall k :: 0 <= k < n ==> r[k] == ' '
  {
    if n == 0 then [] else [' '] + Spaces(n - 1)
  }

  /** Each line after `n` spaces: the text of every line is kept, only moved right. */
  function Shifted(n: nat, lines: seq<string>): (rows: seq<string>)
    ensures |rows| == |lines|
    ensures forall k :: 0 <= k < |lines| ==>
      |rows[k]| == n + |lines[k]| && rows[k][n..] == lines[k] && rows[k][..n] == Spaces(n)
  {
    var sp := Spaces(n);
    var rows := seq(|lines|, k requires 0 <= k < |lines| => sp + lines[k]);
    assert forall k :: 0 <= k < |lines| ==> rows[k][n..] == lines[k] && rows[k][..n] == sp;
    rows
  }

  /** The rows printed for `lines` with padding `pad`: `top` empty rows, then the lines
      shifted right by `left`, so the text printed is the text given, line by line,
      below the blank rows. */
  function Block(pad: Padding, lines: seq<string>): (rows: seq<string>)
    ensures |rows| == pad.top + |lines|
    ensures forall k :: 0 <= k < pad.top ==> rows[k] == []
    ensures forall k :: 0 <= k < |lines| ==>
      |rows[pad.top + k]| == pad.left + |lines[k]|
      && rows[pad.top + k][pad.left..] == lines[k]
      && rows[pad.top + k][..pad.left] == Spaces(pad.left)
  {
    var blank: seq<string> := seq(pad.top, _ => []);
    var shifted := Shifted(pad.left, lines);
    assert forall k :: 0 <= k < |lines| ==> (blank + shifted)[pad.top + k] == shifted[k];
    blank + shifted
  }

  /** What `center_display(text)` prints, as rows: blank rows, then every line of the
      text, in order, after the same run of spaces. Text that fits the terminal is
      printed within it. */
  function CenterDisplay(text: string, size: Option<Size>): (rows: seq<string>)
    ensures LaidOut(rows, CenterPadding(text, size), Lines(SplitLines, text))
    ensures FitsWhenSmaller(rows, Lines(SplitLines, text), Terminal(size))
  {
    var s, lines := Terminal(size), Lines(SplitLines, text);
    var pad := CenterPadding(text, size);
    BlockRows(pad, lines);
    if MaxWidth(lines) <= s.width then
      BlockFits(pad, lines, s.width);
      Block(pad, lines)
    else
      Block(pad, lines)
  }

  /** `rows` are `pad.top` blank rows, then each line after `pad.left` spaces. */
  predicate LaidOut(rows: seq<string>, pad: Padding, lines: seq<string>) {
    && |rows| == pad.top + |lines|
    && (forall k :: 0 <= k < pad.top ==> rows[k] == [])
    && (forall k :: 0 <= k < |lines| ==> rows[pad.top + k] == Spaces(pad.left) + lines[k])
  }

  /** Rows of lines no wider than the terminal fit in its width; as many rows as lines
      fit in its height when the lines do. */
  predicate FitsWhenSmaller(rows: seq<string>, lines: seq<string>, s: Size) {
    && (MaxWidth(lines) <= s.width ==> forall k :: 0 <= k < |rows| ==> |rows[k]| <= s.width)
    && (|lines| <= s.height ==> |rows| <= s.height)
  }

  /** Each line's row is the padding followed by the line. */
  lemma BlockRows(pad: Padding, lines: seq<string>)
    ensures forall k :: 0 <= k < |lines| ==> Block(pad, lines)[pad.top + k] == Spaces(pad.left) + lines[k]
  {
    forall k | 0 <= k < |lines|
      ensures Block(pad, lines)[pad.top + k] == Spaces(pad.left) + lines[k]
    {
      var r := Block(pad, lines)[pad.top + k];
      Rejoin(r, pad.left, Spaces(pad.left), lines[k]);
    }
  }

  /** A string is its first `n` characters followed by the rest. */
  lemma Rejoin(r: string, n: nat, a: string, b: string)
    requires n <= |r| && r[..n] == a && r[n..] == b
    ensures r == a + b
  {
    assert r == r[..n] + r[n..];
  }

  /** Lines that fit in `width` after the padding give rows that fit. */
  lemma BlockFits(pad: Padding, lines: seq<string>, width: nat)
    requires forall k :: 0 <= k < |lines| ==> pad.left + |lines[k]| <= width
    ensures forall k :: 0 <= k < |Block(pad, lines)| ==> |Block(pad, lines)[k]| <= width
  {
    var rows := Block(pad, lines);
    forall k | 0 <= k < |rows|
      ensures |rows[k]| <= width
    {
      if k >= pad.top {
        assert |rows[pad.top + (k - pad.top)]| == pad.left + |lines[k - pad.top]|;
      }
    }
  }
}

=== FILE: session.dfy ===
/** The repeat loop of the script's main program: play the audio and show the lyrics,
    then count the play against the loop count, which is either a number of times or
    forever. Each play stands for one audio launch and one run of the cue scheduler;
    `budget` bounds the number of plays the surroundings allow before the user
    interrupts, so a run that never stops on its own still ends. */
module Session {
  import opened Prompts

  /** The plays wanted: a loop count of 0 or less still plays once, since the count is
      looked at only after a play. */
  function Wanted(n: int): nat {
    if n < 1 then 1 else n
  }

  method RepeatPlays(count: Count, budget: nat) returns (plays: nat, stopped: bool)
    ensures count.Forever? ==> plays == budget && !stopped
    ensures count.Times? ==> (stopped <==> Wanted(count.n) <= budget)
    ensures count.Times? ==> plays == if stopped then Wanted(count.n) else budget
  {
    var remaining: int := if count.Times? then count.n else 0;
    plays := 0;
    stopped := false;
    while plays < budget && !stopped
      invariant plays <= budget
      invariant count.Forever? ==> !stopped
      invariant count.Times? ==> plays <= Wanted(count.n)
      invariant count.Times? && !stopped ==> remaining == count.n - plays && plays < Wanted(count.n)
      invariant count.Times? && stopped ==> plays == Wanted(count.n)
    {
      plays := plays + 1;
      if count.Times? {
        remaining := remaining - 1;
        if remaining <= 0 {
          stopped := true;
        }
      }
    }
  }
}

=== FILE: text.dfy ===
/** Characters and strings the way Python's `str` methods used by the script see them:
    `isspace`/`strip()` with no argument, ASCII decimal digits and their values,
    and splitting text into lines. */
module Text {

  datatype Option<T> = None | Some(value: T)

  /** Python's `str.isspace()`: the characters `strip()` removes when given no argument. */
  predicate IsSpace(c: char) {
    var k := c as int;
    || (9 <= k <= 13) || (28 <= k <= 32) || k == 0x85 || k == 0xA0 || k == 0x1680
    || (0x2000 <= k <= 0x200A) || k == 0x2028 || k == 0x2029 || k == 0x202F
    || k == 0x205F || k == 0x3000
  }

  predicate AllSpace(s: string) {
    forall k :: 0 <= k < |s| ==> IsSpace(s[k])
  }

  predicate IsDigit(c: char) {
    '0' <= c <= '9'
  }

  predicate AllDigits(s: string) {
    forall k :: 0 <= k < |s| ==> IsDigit(s[k])
  }

  function DigitValue(c: char): nat
    requires IsDigit(c)
  {
    (c as int) - ('0' as int)
  }

  /** The value of a decimal digit string, most significant digit first. */
  function DigitsValue(s: string): nat
    requires AllDigits(s)
    decreases |s|
  {
    if s == [] then 0 else DigitsValue(s[..|s| - 1]) * 10 + DigitValue(s[|s| - 1])
  }

  function Pow10(n: nat): (p: nat)
    ensures p >= 1
  {
    if n == 0 then 1 else 10 * Pow10(n - 1)
  }

  /** A string of k digits is worth less than 10^k, so a fraction `.ddd` is below one. */
  lemma {:induction false} DigitsValueBelowPow10(s: string)
    requires AllDigits(s)
    ensures DigitsValue(s) < Pow10(|s|)
  {
    if s != [] {
      DigitsValueBelowPow10(s[..|s| - 1]);
    }
  }

  // ---------------------------------------------------------------------------
  // strip()

  /** The number of whitespace characters `s` starts with. */
  function LeadingSpaces(s: string): (n: nat)
    ensures n <= |s|
    ensures n < |s| ==> !IsSpace(s[n])
    decreases |s|
  {
    if s != [] && IsSpace(s[0]) then 1 + LeadingSpaces(s[1..]) else 0
  }

  lemma {:induction false} LeadingRun(s: string)
    ensures forall k :: 0 <= k < LeadingSpaces(s) ==> IsSpace(s[k])
    decreases |s|
  {
    if s != [] && IsSpace(s[0]) {
      LeadingRun(s[1..]);
      assert forall k :: 1 <= k < |s| ==> s[k] == s[1..][k - 1];
    }
  }

  /** The number of whitespace characters `s` ends with. */
  function TrailingSpaces(s: string): (n: nat)
    ensures n <= |s|
    ensures n < |s| ==> !IsSpace(s[|s| - n - 1])
    decreases |s|
  {
    if s != [] && IsSpace(s[|s| - 1]) then 1 + TrailingSpaces(s[..|s| - 1]) else 0
  }

  lemma {:induction false} TrailingRun(s: string)
    ensures forall k :: |s| - TrailingSpaces(s) <= k < |s| ==> IsSpace(s[k])
    decreases |s|
  {
    if s != [] && IsSpace(s[|s| - 1]) {
      TrailingRun(s[..|s| - 1]);
      assert forall k :: 0 <= k < |s| - 1 ==> s[k] == s[..|s| - 1][k];
    }
  }

  /** Python's `s.strip()`: `s` without its leading and trailing whitespace. */
  function Strip(s: string): (r: string)
    ensures r == [] <==> AllSpace(s)
    ensures r != [] ==> !IsSpace(r[0]) && !IsSpace(r[|r| - 1])
  {
    var a := LeadingSpaces(s);
    var t := s[a..];
    var b := TrailingSpaces(t);
    LeadingRun(s);
    TrailingRun(t);
    assert a < |s| ==> t[0] == s[a] && b < |t|;
    t[..|t| - b]
  }

  /** A string that neither starts nor ends with whitespace is its own `strip()`. */
  lemma StripUnpadded(s: string)
    requires s != [] ==> !IsSpace(s[0]) && !IsSpace(s[|s| - 1])
    ensures Strip(s) == s
  {
    assert LeadingSpaces(s) == 0;
    assert s[0..] == s;
    assert TrailingSpaces(s) == 0;
  }

  /** `strip()` removes whitespace and nothing else: `s` is its result surrounded by
      whitespace. */
  lemma StripRemovesOnlySpace(s: string)
    ensures var a, r := LeadingSpaces(s), Strip(s);
      && a + |r| <= |s| && s[a..a + |r|] == r
      && AllSpace(s[..a]) && AllSpace(s[a + |r|..])
  {
    var a := LeadingSpaces(s);
    StripMiddle(s);
    LeadingAllSpace(s, a);
    StripTrailingSpace(s);
  }

  lemma StripMiddle(s: string)
    ensures LeadingSpaces(s) + |Strip(s)| <= |s|
    ensures s[LeadingSpaces(s)..LeadingSpaces(s) + |Strip(s)|] == Strip(s)
  {
    var a := LeadingSpaces(s);
    var t := s[a..];
    assert Strip(s) == t[..|t| - TrailingSpaces(t)];
  }

  lemma LeadingAllSpace(s: string, a: nat)
    requires a == LeadingSpaces(s)
    ensures AllSpace(s[..a])
  {
    LeadingRun(s);
    assert forall k :: 0 <= k < a ==> s[..a][k] == s[k];
  }

  lemma StripTrailingSpace(s: string)
    ensures LeadingSpaces(s) + |Strip(s)| <= |s|
    ensures AllSpace(s[LeadingSpaces(s) + |Strip(s)|..])
  {
    var a := LeadingSpaces(s);
    var t := s[a..];
    var b := TrailingSpaces(t);
    StripLength(s, a, t, b);
    assert AllSpace(s[a + (|t| - b)..]) by {
      TrailingAllSpace(t, b);
      SuffixOfSuffix(s, a, t, |t| - b);
    }
  }

  lemma StripLength(s: string, a: nat, t: string, b: nat)
    requires a == LeadingSpaces(s) && t == s[a..] && b == TrailingSpaces(t)
    ensures |Strip(s)| == |t| - b
  {
  }

  lemma SuffixOfSuffix<T>(s: seq<T>, a: nat, t: seq<T>, k: nat)
    requires a <= |s| && t == s[a..] && k <= |t|
    ensures s[a + k..] == t[k..]
  {
  }

  lemma TrailingAllSpace(t: string, b: nat)
    requires b == TrailingSpaces(t)
    ensures AllSpace(t[|t| - b..])
  {
    TrailingRun(t);
    var u := t[|t| - b..];
    assert forall k :: 0 <= k < |u| ==> u[k] == t[|t| - b + k];
  }

  /** `t` split before its trailing whitespace. */
  lemma SplitTrailing(t: string) returns (u: string, q: string)
    ensures t == u + q && AllSpace(q)
    ensures u == [] || !IsSpace(u[|u| - 1])
  {
    var n := |t| - TrailingSpaces(t);
    u, q := t[..n], t[n..];
    assert AllSpace(q) by {
      TrailingRun(t);
      assert forall k :: 0 <= k < |q| ==> q[k] == t[n + k];
    }
    assert u == [] || !IsSpace(u[|u| - 1]) by {
      if u != [] {
        assert u[|u| - 1] == t[|t| - TrailingSpaces(t) - 1];
      }
    }
    assert t == u + q;
  }

  /** Whitespace around a string does not change what `strip()` returns. */
  lemma StripIgnoresPadding(p: string, s: string, q: string)
    requires AllSpace(p) && AllSpace(q)
    ensures Strip(p + s + q) == Strip(s)
  {
    assert p + s + q == p + (s + q);
    StripDropsLeft(p, s + q);
    StripDropsRight(s, q);
  }

  lemma {:induction false} StripDropsLeft(p: string, x: string)
    requires AllSpace(p)
    ensures Strip(p + x) == Strip(x)
    decreases |p|
  {
    if p != [] {
      assert p + x == [p[0]] + (p[1..] + x);
      StripConsSpace(p[0], p[1..] + x);
      StripDropsLeft(p[1..], x);
    } else {
      assert p + x == x;
    }
  }

  lemma {:induction false} StripDropsRight(x: string, q: string)
    requires AllSpace(q)
    ensures Strip(x + q) == Strip(x)
    decreases |q|
  {
    if q != [] {
      var front := q[..|q| - 1];
      assert x + q == (x + front) + [q[|q| - 1]];
      StripSnocSpace(x + front, q[|q| - 1]);
      StripDropsRight(x, front);
    } else {
      assert x + q == x;
    }
  }

  /** One leading whitespace character makes no difference. */
  lemma StripConsSpace(c: char, x: string)
    requires IsSpace(c)
    ensures Strip([c] + x) == Strip(x)
  {
    var y := [c] + x;
    assert y[1..] == x;
    assert LeadingSpaces(y) == 1 + LeadingSpaces(x);
    assert y[1 + LeadingSpaces(x)..] == x[LeadingSpaces(x)..];
  }

  /** One trailing whitespace character makes no difference. */
  lemma StripSnocSpace(x: string, c: char)
    requires IsSpace(c)
    ensures Strip(x + [c]) == Strip(x)
  {
    if AllSpace(x) {
      var y := x + [c];
      assert AllSpace(y) by {
        assert forall k :: 0 <= k < |x| ==> y[k] == x[k];
      }
    } else {
      StripSnocInside(x, c);
    }
  }

  lemma StripSnocInside(x: string, c: char)
    requires IsSpace(c) && !AllSpace(x)
    ensures Strip(x + [c]) == Strip(x)
  {
    var y := x + [c];
    var a := LeadingSpaces(x);
    LeadingSpacesInside(x, [c]);
    var t := x[a..];
    assert y[a..] == t + [c];
    assert (t + [c])[..|t|] == t;
    assert TrailingSpaces(t + [c]) == 1 + TrailingSpaces(t);
  }

  /** Appending text after a character that is not whitespace keeps the leading run. */
  lemma {:induction false} LeadingSpacesInside(s: string, q: string)
    requires !AllSpace(s)
    ensures LeadingSpaces(s + q) == LeadingSpaces(s)
    decreases |s|
  {
    if IsSpace(s[0]) {
      assert (s + q)[1..] == s[1..] + q;
      assert !AllSpace(s[1..]) by {
        var k :| 0 <= k < |s| && !IsSpace(s[k]);
        assert s[1..][k - 1] == s[k];
      }
      LeadingSpacesInside(s[1..], q);
    }
  }

  // ---------------------------------------------------------------------------
  // Line splitting

  /** Which characters end a line: a text file read in universal-newline mode
      (`\n`, `\r`, `\r\n`), or `str.splitlines()` (which also breaks at `\v`, `\f`,
      the separators U+001C..U+001E, U+0085, U+2028 and U+2029). */
  datatype Breaks = FileLines | SplitLines

  predicate IsBreak(kind: Breaks, c: char) {
    match kind
    case FileLines => c == '\n' || c == '\r'
    case SplitLines =>
      var k := c as int;
      (10 <= k <= 13) || (28 <= k <= 30) || k == 0x85 || k == 0x2028 || k == 0x2029
  }

  /** The index of the first line break in `s` at or after `i`, or `|s|`. */
  function NextBreak(kind: Breaks, s: string, i: nat): (j: nat)
    requires i <= |s|
    ensures i <= j <= |s|
    ensures forall k :: i <= k < j ==> !IsBreak(kind, s[k])
    ensures j < |s| ==> IsBreak(kind, s[j])
    decreases |s| - i
  {
    if i == |s| || IsBreak(kind, s[i]) then i else NextBreak(kind, s, i + 1)
  }

  /** The lines of `s` without their terminators; `\r\n` ends one line, and a final
      terminator does not start an empty last line. */
  function Lines(kind: Breaks, s: string): (lines: seq<string>)
    ensures forall n, k :: 0 <= n < |lines| && 0 <= k < |lines[n]| ==> !IsBreak(kind, lines[n][k])
    ensures s == [] <==> lines == []
    decreases |s|
  {
    if s == [] then []
    else
      var j := NextBreak(kind, s, 0);
      if j == |s| then [s]
      else
        var skip := if s[j] == '\r' && j + 1 < |s| && s[j + 1] == '\n' then 2 else 1;
        [s[..j]] + Lines(kind, s[j + skip..])
  }

  /** The three line endings a text file read in universal-newline mode recognises. */
  predicate IsTerminator(e: string) {
    e == "\n" || e == "\r" || e == "\r\n"
  }

  predicate NoBreaks(kind: Breaks, l: string) {
    forall k :: 0 <= k < |l| ==> !IsBreak(kind, l[k])
  }

  /** A line without breaks followed by a break: the first break is right after it. */
  lemma FirstBreak(kind: Breaks, l: string, r: string)
    requires NoBreaks(kind, l) && r != [] && IsBreak(kind, r[0])
    ensures NextBreak(kind, l + r, 0) == |l| && (l + r)[..|l|] == l && (l + r)[|l|] == r[0]
  {
    var s := l + r;
    assert forall k :: 0 <= k < |l| ==> s[k] == l[k];
    assert s[..|l|] == l;
  }

  /** Each line followed by its own line ending: the text a list of lines is written
      out as. */
  function Terminated(lines: seq<string>, es: seq<string>): string
    requires |es| == |lines|
    decreases |lines|
  {
    if lines == [] then [] else lines[0] + es[0] + Terminated(lines[1..], es[1..])
  }

  /** A lone `\r` ending an empty line and a `\n` ending the next are not told apart
      from one `\r\n`, so a list of lines written that way does not read back. */
  predicate Separate(lines: seq<string>, es: seq<string>, n: nat)
    requires n + 1 < |lines| && |es| == |lines|
  {
    es[n] == "\r" && lines[n + 1] == [] ==> es[n + 1] != "\n"
  }

  /** Lines without breaks, each with one of the three line endings, written so that
      every ending reads back as itself. */
  predicate Endings(kind: Breaks, lines: seq<string>, es: seq<string>) {
    && |es| == |lines|
    && (forall n :: 0 <= n < |lines| ==> NoBreaks(kind, lines[n]))
    && (forall n :: 0 <= n < |es| ==> IsTerminator(es[n]))
    && (forall n :: 0 <= n < |lines| - 1 ==> Separate(lines, es, n))
  }

  lemma EndingsTail(kind: Breaks, lines: seq<string>, es: seq<string>)
    requires Endings(kind, lines, es) && lines != []
    ensures Endings(kind, lines[1..], es[1..])
    ensures NoBreaks(kind, lines[0]) && IsTerminator(es[0])
    ensures |lines| > 1 && es[0] == "\r" && lines[1] == [] ==> es[1] != "\n"
  {
    var ls, fs := lines[1..], es[1..];
    assert forall n :: 0 <= n < |ls| ==> ls[n] == lines[n + 1];
    assert forall n :: 0 <= n < |fs| ==> fs[n] == es[n + 1];
    forall n | 0 <= n < |ls| - 1
      ensures Separate(ls, fs, n)
    {
      assert Separate(lines, es, n + 1);
    }
    if |lines| > 1 {
      assert Separate(lines, es, 0);
    }
  }

  /** Lines written out with any of the three line endings, mixed as they may be,
      followed by a last line that may lack one, are read back as exactly those lines;
      an empty last line adds no line. */
  lemma {:induction false} LinesOfTerminated(kind: Breaks, lines: seq<string>, es: seq<string>, last: string)
    requires Endings(kind, lines, es)
    requires NoBreaks(kind, last)
    ensures Lines(kind, Terminated(lines, es) + last) == lines + (if last == [] then [] else [last])
    decreases |lines|
  {
    var extra := if last == [] then [] else [last];
    if lines == [] {
      LinesLast(kind, last);
      assert Terminated(lines, es) + last == last;
    } else {
      EndingsTail(kind, lines, es);
      TerminatedCons(kind, lines, es, last);
      LinesOfTerminated(kind, lines[1..], es[1..], last);
      ConsBack(lines, extra, Lines(kind, Terminated(lines, es) + last),
        Lines(kind, Terminated(lines[1..], es[1..]) + last));
    }
  }

  /** A list is its head put back in front of its tail. */
  lemma ConsBack<T>(xs: seq<T>, ys: seq<T>, a: seq<T>, b: seq<T>)
    requires xs != [] && a == [xs[0]] + b && b == xs[1..] + ys
    ensures a == xs + ys
  {
    assert xs == [xs[0]] + xs[1..];
  }

  /** One step of LinesOfTerminated: the first line comes off the front. */
  lemma TerminatedCons(kind: Breaks, lines: seq<string>, es: seq<string>, last: string)
    requires Endings(kind, lines, es) && lines != []
    requires NoBreaks(kind, last)
    ensures Lines(kind, Terminated(lines, es) + last)
         == [lines[0]] + Lines(kind, Terminated(lines[1..], es[1..]) + last)
  {
    EndingsTail(kind, lines, es);
    var rest := Terminated(lines[1..], es[1..]) + last;
    TerminatedHead(lines, es, last);
    RestNotNewline(kind, lines, es, last);
    LinesCons(kind, lines[0], es[0], rest);
  }

  lemma TerminatedHead(lines: seq<string>, es: seq<string>, last: string)
    requires |es| == |lines| && lines != []
    ensures Terminated(lines, es) + last == lines[0] + es[0] + (Terminated(lines[1..], es[1..]) + last)
  {
  }

  /** What follows a lone `\r` does not start with `\n`. */
  lemma RestNotNewline(kind: Breaks, lines: seq<string>, es: seq<string>, last: string)
    requires Endings(kind, lines, es) && lines != [] && NoBreaks(kind, last)
    ensures var rest := Terminated(lines[1..], es[1..]) + last;
      es[0] == "\r" ==> rest == [] || rest[0] != '\n'
  {
    EndingsTail(kind, lines, es);
    if es[0] == "\r" {
      FirstNotNewline(kind, lines[1..], es[1..], last);
    }
  }

  /** A last line without a line ending is read as one line, unless it is empty. */
  lemma LinesLast(kind: Breaks, last: string)
    requires NoBreaks(kind, last)
    ensures Lines(kind, last) == if last == [] then [] else [last]
  {
    if last != [] {
      assert NextBreak(kind, last, 0) == |last|;
    }
  }

  /** Text written from lines with their endings does not start with `\n` unless its
      first line is empty and ends with `\n`, so a `\r` before it is read alone. */
  lemma FirstNotNewline(kind: Breaks, lines: seq<string>, es: seq<string>, last: string)
    requires Endings(kind, lines, es) && NoBreaks(kind, last)
    requires lines != [] && lines[0] == [] ==> es[0] != "\n"
    ensures Terminated(lines, es) + last == [] || (Terminated(lines, es) + last)[0] != '\n'
  {
    var x := Terminated(lines, es) + last;
    if lines == [] {
      assert x == last;
    } else {
      EndingsTail(kind, lines, es);
      if lines[0] == [] {
        assert x[0] == es[0][0];
      } else {
        assert x[0] == lines[0][0];
      }
    }
  }

  /** A line without breaks followed by a line ending is read back as that line. */
  lemma LinesCons(kind: Breaks, l: string, e: string, rest: string)
    requires NoBreaks(kind, l) && IsTerminator(e)
    requires e == "\r" ==> rest == [] || rest[0] != '\n'
    ensures Lines(kind, l + e + rest) == [l] + Lines(kind, rest)
  {
    var s := l + (e + rest);
    FirstBreak(kind, l, e + rest);
    assert s[|l| + |e|..] == rest;
    assert |e| == (if s[|l|] == '\r' && |l| + 1 < |s| && s[|l| + 1] == '\n' then 2 else 1) by {
      if e == "\r\n" {
        assert s[|l| + 1] == '\n';
      } else if e == "\r" && rest != [] {
        assert s[|l| + 1] == rest[0];
      }
    }
    LinesAtBreak(kind, s, |l|, |e|);
    Assoc(l, e, rest);
  }

  /** Concatenation is associative. */
  lemma Assoc<T>(a: seq<T>, b: seq<T>, c: seq<T>)
    ensures a + b + c == a + (b + c)
  {
  }

  /** One step of `Lines` at the first break. */
  lemma LinesAtBreak(kind: Breaks, s: string, j: nat, skip: nat)
    requires s != [] && j == NextBreak(kind, s, 0) && j < |s|
    requires skip == if s[j] == '\r' && j + 1 < |s| && s[j + 1] == '\n' then 2 else 1
    ensures Lines(kind, s) == [s[..j]] + Lines(kind, s[j + skip..])
  {
  }
}
